=== FILE: README.md ===
# Storefront model

This is a Dafny model of a small storefront for handbags. The model has three parts.

The **backend** is an Express/Mongoose REST server. Its store holds three collections: administrators, products (`productos`) and orders (`pedidos`). An authorization gate (`authMiddleware`) guards the administrative routes.
- `Server.Store` is a class. Its fields are those collections, and each route is one of its methods.
- The gate, the field coercions of product create and update, the public list filter, the listing order and the statistics are pure functions beside it.
- bcrypt and jsonwebtoken are a `Crypto` value of uninterpreted functions held by the store. `JwtSound` states what jsonwebtoken promises: a token verifies to its id strictly before its expiry, and not after. `BcryptSound` states what bcrypt promises: a password matches its own hash.

The **storefront** (`Tienda`) has:
- a shopping cart with add-or-increment, quantity change, removal and total;
- the order payload it posts;
- the category buttons and the product search.

`Tienda.Storefront` holds the component state (`carrito`, `mostrarCarrito`, `mostrarCheckout`) that the handlers replace. Its methods are built on the pure transforms.

The **admin panel** (`AdminPanel`) has:
- the conversion from the product form to the request body;
- the conversion from a stored product back to the form (`editProducto`);
- the colour/image rows;
- the product search.

`AdminPanel.Panel` holds the form, the id being edited and the current view.

The shared JavaScript behaviour is spelt out in three support modules:
- `Text`: split on one character, join, trim, ASCII lower-casing and `includes`.
- `JsValues`: the loose JSON values, strict comparison with `'true'`, and the global `parseInt`. For `parseInt`, a number goes through its decimal numeral, leading white space and a sign are skipped, a `0x` prefix is honoured without a radix, and `undefined`, `null` and booleans give NaN.
- `Seqs`: filter, map, subsequence, and the first-occurrence order of a JavaScript `Set`.

The model proves several consequences of how the parts fit together:
- Saving a product unchanged from the panel is the identity, except for three fields: `videos` is emptied, and `destacado` and `activo` become false (`AdminPanel.EditThenSaveUnchanged`). The backend compares both flags with the string 'true', while the panel sends `destacado` as a JSON boolean and never sends `activo`. This holds for a product whose colours are clean (non-empty, trimmed, comma-free), whose image URLs are non-empty, and which has at most one image or no more images than colours.
- As a result, a product updated through the panel disappears from every public listing (`AdminPanel.PanelUpdateHidesProduct`).
- Images beyond the number of colours are lost when a product is edited and saved (`AdminPanel.EditSaveDropsExtraImage`).

Behaviour of the routes worth noting:
- Registering a known email answers 400.
- Updating an unknown product or order answers 200 with `null`.
- A negative price or stock is accepted. A price that does not parse fails with 500 when Mongoose cannot cast it to a number.
- Create always sets `activo` to true and ignores the body's value. Only the string 'true' sets `destacado`.
- An order's `estado` is taken from the body when present.

Mongoose behaviour the model relies on:
- A NaN number fails the cast, so create and update answer 500.
- `required` rejects an absent or empty `nombre` on create. Updates run no validators.
- An update drops keys whose value is `undefined`, so absent strings keep their old values. This is the behaviour of Mongoose 6 and later; Mongoose 5 stored `null` for such keys instead. The installed Mongoose version is not part of this model.

## Model

| member | source | states |
|---|---|---|
| Server.BearerToken | backend/server.js:90 | the token is the second space-separated piece of the header, present only when non-empty; it never contains a space |
| Server.Authorize | backend/server.js:88-99 | fails only with 401; 'No autorizado' exactly when the header has no token; 'Token inválido' exactly when the token does not verify; otherwise admits the id the token verifies to |
| Server.MissingTokenIsUnauthorized | backend/server.js:90-91 | `Bearer` alone, or two spaces before the token, is answered 'No autorizado' without verifying anything |
| Server.LoginTokenAuthorizes | backend/server.js:93-97 | the token login signs, sent as `Bearer <token>`, admits its administrator strictly within seven days and is 'Token inválido' from then on |
| Server.FindById | backend/server.js:169-170 | finds a document with that id, and finds none exactly when no document has it |
| Server.FindByIdUnique | backend/server.js:169 | with unique ids, the document found is the one holding the id |
| Server.ReplaceById | backend/server.js:206-221 | same length; each document with the id is replaced and every other is unchanged |
| Server.RemoveById | backend/server.js:232 | no document with the id remains |
| Server.RemoveByIdAtMostOne | backend/server.js:230-236 | with unique ids, delete removes exactly one document when the id exists and none otherwise; the rest keep their order |
| Server.InsertByDate | backend/server.js:159 | inserting into a newest-first list keeps it newest-first and adds exactly that element |
| Server.SortNewestFirst | backend/server.js:255 | the result is a permutation of the input ordered by descending `createdAt` |
| Server.StockOnCreate | backend/server.js:190 | the stock of a new product is never 0 |
| Server.StockOnCreateCases | backend/server.js:190 | a numeric stock is kept unless it is 0; an absent, null or boolean stock becomes 1, and so does a string without any digit |
| Server.StockOnCreateOfText | backend/server.js:190 | the strings 'muchos' and '' become stock 1, and '3.7' becomes 3 because parseInt stops at the point |
| Server.NewProducto | backend/server.js:179-194 | succeeds exactly when `nombre` is present and non-empty and the price parses, else 500; the product has the given id and time, the given name and price, `descripcion` and `categoria` as sent ('' when absent), `activo` true, `videos` empty, `imagenes`/`colores` as sent or empty when absent, the stock `parseInt(stock) \|\| 1` computes (never 0), and `destacado` only for the string 'true' |
| Server.NewProductoListed | backend/server.js:154-157 | a created product is in the public list, and among the featured ones exactly when `destacado` was the string 'true' |
| Server.Listed | backend/server.js:154-157 | only active products are listed, and without query parameters every active product is |
| Server.UpdateCasts | backend/server.js:210-216 | the update casts when the price parses and the stock is a number; an unparseable price or an absent, null or boolean stock makes it fail |
| Server.UpdatedProducto | backend/server.js:204-221 | id and creation time are kept; the price is the parsed price and the stock what parseInt reads from the body (a number as sent); `activo` and `destacado` are true only for the string 'true'; an absent `nombre`, `descripcion` or `categoria` keeps the old value; `imagenes`, `videos` and `colores` are as sent, or empty when absent |
| Server.NewPedido | backend/server.js:242-246 | the stored order has the client, lines, total and `notas` exactly as sent; `estado` as sent, else 'pendiente'; the body's `_id` and `createdAt` when it carries them, else the fresh id and the current time |
| Server.UpdatedPedido | backend/server.js:265-270 | any given status or note replaces the old one with no transition check; an absent status or note keeps its old value; client, lines, total and time are untouched |
| Server.StatsOf | backend/server.js:280-292 | the order count is the number of orders, pending ones are at most that many, active products at most all products, and revenue is 0 with no orders |
| Server.StatsAfterOrder | backend/server.js:280-292 | one more order adds one to the count, one to pending when it is pending, and its total to revenue |
| Server.VentasBounds | backend/server.js:284-292 | revenue is non-negative when no order total is negative, and 0 when no order has a total |
| Server.VentasSplit | backend/server.js:284-292 | revenue over the orders is additive over any split of the order list |
| Server.Store.Register | backend/server.js:104-120 | a known email gives 400 'Admin ya existe' and no change; otherwise exactly one administrator is appended holding the password's hash; store invariant kept |
| Server.Store.Login | backend/server.js:123-146 | unknown email and wrong password both give the same 400 'Credenciales inválidas'; otherwise a token for the administrator's id expiring seven days from now, and the public fields |
| Server.Store.RegisterThenLogin | backend/server.js:104-146 | with bcrypt and jsonwebtoken sound, registering a new email and then logging in with the same password succeeds for the new administrator, and the returned token is accepted by the auth middleware for that administrator's id now and rejected as 'Token inválido' seven days later |
| Server.Store.ListProductos | backend/server.js:151-164 | a product is listed exactly when it is stored, active, of the requested category and featured when asked; the list is ordered newest first |
| Server.Store.GetProducto | backend/server.js:167-175 | returns the product with the id whether active or not; 404 exactly when no product has the id |
| Server.Store.CreateProducto | backend/server.js:178-199 | a refused token answers the gate's 401 and changes nothing; otherwise the new product, or the 500, with the product appended only on success |
| Server.Store.UpdateProducto | backend/server.js:202-227 | gate first; a price or stock that does not parse gives 500 with no change; an unknown id gives null with no change; otherwise the product with that id is replaced by its update |
| Server.Store.DeleteProducto | backend/server.js:230-237 | gate first; then always 'Producto eliminado', and the products are those without the id |
| Server.Store.CreatePedido | backend/server.js:242-250 | public; a body `_id` already stored gives 500 (duplicate key) and no change; otherwise the order `NewPedido` builds is appended, and ids stay unique |
| Server.Store.ListPedidos | backend/server.js:253-260 | gate first; then every order, newest first |
| Server.Store.UpdatePedido | backend/server.js:263-275 | gate first; an unknown id gives null with no change; otherwise that order gets the given status and notes |
| Server.Store.Estadisticas | backend/server.js:278-297 | gate first; then the active product count, order count, pending count and revenue of the store |
| JsValues.ParseIntString | backend/server.js:190 | parseInt of a string gives a number only when the string contains a decimal digit |
| JsValues.ParseIntOfNumber | backend/server.js:216 | parseInt of the decimal numeral of any integer reads that integer back, with or without radix 10 |
| JsValues.ParseIntOfWords | backend/server.js:190 | parseInt of the strings 'undefined', 'null', 'true' and 'false' is NaN |
| JsValues.ParseInt | frontend/src/AdminPanel.js:142 | parseInt of a number is that number; of undefined, null or a boolean it is NaN |
| Text.Split | frontend/src/AdminPanel.js:143 | at least one piece, no piece contains the separator, and joining the pieces with it gives the input back |
| Text.SplitJoin | backend/server.js:90 | splitting a join of separator-free pieces gives the pieces back |
| Text.JoinEnds | frontend/src/AdminPanel.js:118 | a join starts with the first piece and ends with the last |
| Text.Lower | frontend/src/Tienda.js:112 | same length, each character lower-cased |
| Text.Trim | frontend/src/AdminPanel.js:143 | the result is a slice of the input with only white space cut off before and after it, and no white space left at either end |
| Text.ContainsIffSlice | frontend/src/Tienda.js:112 | `includes` holds exactly when the term occurs at some position |
| Seqs.Distinct | frontend/src/Tienda.js:109 | no repeats, the same elements as the input, ordered by first occurrence |
| Tienda.FindItem | frontend/src/Tienda.js:33 | finds an entry of the product, and none exactly when the product is not in the cart |
| Tienda.AddToCart | frontend/src/Tienda.js:32-44 | the product is in the cart afterwards; an existing product keeps the length, a new one is appended with quantity 1; every entry keeps its product snapshot |
| Tienda.AddToCartQuantities | frontend/src/Tienda.js:32-42 | only the added product's quantity changes, by exactly one, and the cart stays free of duplicates with quantities at least 1 |
| Tienda.AddToCartTotal | frontend/src/Tienda.js:33-41 | the total grows by one unit price: the snapshot's price for an existing entry, else the new product's |
| Tienda.CartTotalNonNegative | frontend/src/Tienda.js:60-62 | with non-negative prices and quantities the total is non-negative, and the empty cart totals 0 |
| Tienda.CartTotalAppend | frontend/src/Tienda.js:60-62 | the total of two carts joined is the sum of their totals |
| Tienda.ModifyQuantity | frontend/src/Tienda.js:46-54 | every remaining entry has a positive quantity |
| Tienda.ModifyQuantityDropsNothing | frontend/src/Tienda.js:53 | with positive quantities the final filter removes nothing |
| Tienda.ModifyQuantityKeepsEntries | frontend/src/Tienda.js:46-54 | on a well-formed cart no entry is removed; only the entry with the id changes, and only when its new quantity is at least 1; the cart stays well formed |
| Tienda.RemoveFromCart | frontend/src/Tienda.js:56-58 | no entry with the id remains and every other entry does |
| Tienda.RemoveFromCartKeepsOrder | frontend/src/Tienda.js:56-58 | the remaining entries keep their order and the cart stays well formed |
| Tienda.LineOf | frontend/src/Tienda.js:72-78 | an order line copies the entry's product id, name, price and quantity, and its image is exactly the product's first image, or '' when there is none |
| Tienda.FirstImage | frontend/src/Tienda.js:77 | the line image is the first image, or '' when there is none |
| Tienda.BuildOrder | frontend/src/Tienda.js:65-80 | no payload exactly when the name or phone is empty; otherwise the client as entered, one line per entry in cart order copying id, name, price and quantity with the first image (or ''), and the total equals the cart total |
| Tienda.LinesTotalOfCart | frontend/src/Tienda.js:70-79 | the lines' sum of price times quantity equals the cart total |
| Tienda.PlacedOrderIsConsistent | frontend/src/Tienda.js:70-80 | the order the backend stores from the payload is pending and its total is the sum of its own lines |
| Tienda.Categorias | frontend/src/Tienda.js:109 | 'todas' first, followed by the distinct categories |
| Tienda.DistinctCategories | frontend/src/Tienda.js:109 | the empty category gets no button |
| Tienda.DistinctCategoriesContents | frontend/src/Tienda.js:109 | each non-empty category appears once, and every button after 'todas' is a non-empty category of some product |
| Tienda.DistinctCategoriesOrder | frontend/src/Tienda.js:109 | the buttons follow the order in which categories first appear in the catalogue |
| Tienda.Matches | frontend/src/Tienda.js:111-115 | under 'todas' a product matches exactly when its name contains the term case-insensitively; with an empty term exactly when the filter is 'todas' or its category |
| Tienda.ProductosFiltrados | frontend/src/Tienda.js:111-115 | a product is shown exactly when its name contains the term case-insensitively and the filter is 'todas' or its category |
| Tienda.ProductosFiltradosOrder | frontend/src/Tienda.js:111-115 | the result is an order-preserving sublist, and an empty search under 'todas' shows everything |
| Tienda.Storefront.AgregarAlCarrito | frontend/src/Tienda.js:32-44 | the cart becomes the added cart, the cart panel opens, and the cart stays well formed |
| Tienda.Storefront.ModificarCantidad | frontend/src/Tienda.js:46-54 | the cart becomes the modified cart with the same length and stays well formed |
| Tienda.Storefront.EliminarDelCarrito | frontend/src/Tienda.js:56-58 | the cart loses the entries of that product and stays well formed |
| Tienda.Storefront.FinalizarCompra | frontend/src/Tienda.js:64-107 | returns the payload built from the cart; only an accepted order empties the cart and closes both panels, otherwise nothing changes |
| AdminPanel.ParseColores | frontend/src/AdminPanel.js:143 | every saved colour is non-empty, trimmed and comma-free |
| AdminPanel.Imagenes | frontend/src/AdminPanel.js:144 | no saved image URL is empty |
| AdminPanel.ImagenesOrder | frontend/src/AdminPanel.js:144 | the saved images are the main image when set, followed by the non-empty row URLs in row order |
| AdminPanel.CleanNonEmpty | frontend/src/AdminPanel.js:143 | keeping the non-empty pieces of trimmed, comma-free pieces gives clean colours |
| AdminPanel.BuildProductData | frontend/src/AdminPanel.js:139-146 | no body exactly when the form holds no row array; otherwise clean colours, non-empty images and only complete rows |
| AdminPanel.SavedRowsOrder | frontend/src/AdminPanel.js:145 | the saved rows are exactly the complete rows, in row order |
| AdminPanel.AsBody | frontend/src/AdminPanel.js:139-146 | the body read by the backend never holds the string 'true' in `destacado` or `activo`, and carries the name, description, price, category, colours, stock and images as sent, with no `videos` |
| AdminPanel.PanelSaveFlags | backend/server.js:217-218 | whatever the checkbox says, a panel create stores `destacado` false, and a panel update stores `destacado` and `activo` false |
| AdminPanel.PanelUpdateHidesProduct | backend/server.js:218 | a product updated through the panel is in no public listing |
| AdminPanel.EmptyStockField | frontend/src/AdminPanel.js:142 | an empty stock field is sent as null: create stores 1 and update fails with 500 |
| AdminPanel.RowsOf | frontend/src/AdminPanel.js:123-126 | with at least two images, one row per colour after the first, pairing colour k+1 with image k+1 or '' past the last image; no rows with at most one image or no colour |
| AdminPanel.EditForm | frontend/src/AdminPanel.js:111-129 | the main image is the first image or ''; the form always holds a row array |
| AdminPanel.RowUrls | frontend/src/AdminPanel.js:124-125 | the rebuilt row URLs are the images after the first up to the colour count, then empty URLs |
| AdminPanel.JoinSpaced | frontend/src/AdminPanel.js:118 | joining with ', ' equals joining with ',' after a space is put before each piece |
| AdminPanel.SplitJoinedColours | frontend/src/AdminPanel.js:118 | the joined colour text splits on ',' into the colours, each after the first with one leading space |
| AdminPanel.ColoresRoundTrip | frontend/src/AdminPanel.js:118 | a clean colour list joined into the form and parsed back is the same list |
| AdminPanel.EditSaveColores | frontend/src/AdminPanel.js:143 | an edit followed by an unchanged save keeps a clean colour list |
| AdminPanel.KeptImages | frontend/src/AdminPanel.js:123-126 | the number of images an unchanged save keeps is at most the image count, at least 1 when there is an image, and at most the colour count when there is a colour |
| AdminPanel.RebuiltImagenes | frontend/src/AdminPanel.js:121-126 | the main image and rebuilt rows save back to the first `KeptImages` images |
| AdminPanel.EditSaveImages | frontend/src/AdminPanel.js:144 | an edit followed by an unchanged save keeps exactly the first `KeptImages` images |
| AdminPanel.EditSaveBody | frontend/src/AdminPanel.js:139-146 | an unchanged save of a product with clean colours and no surplus images sends its own fields, its colours and images, `destacado` as a boolean, no `activo` and no `videos` |
| AdminPanel.EditThenSaveUnchanged | frontend/src/AdminPanel.js:139-146 | an unchanged panel save of a product with clean colours and no surplus images leaves it as it was, except that `videos` is empty and both flags are false |
| AdminPanel.EditSaveDropsExtraImage | frontend/src/AdminPanel.js:124-125 | one colour and two images save back only the first image |
| AdminPanel.AddRow | frontend/src/AdminPanel.js:538 | the rows with an empty row appended at the end |
| AdminPanel.RowsExcept | frontend/src/AdminPanel.js:527 | walking the rows from a position, the filter drops exactly the row at the index |
| AdminPanel.RemoveRowAt | frontend/src/AdminPanel.js:526-529 | exactly the row at the index is removed; an index past the end removes nothing |
| AdminPanel.SetRowColor | frontend/src/AdminPanel.js:505-509 | only the row at the index changes, and only in its colour |
| AdminPanel.SetRowUrl | frontend/src/AdminPanel.js:516-520 | only the row at the index changes, and only in its URL |
| AdminPanel.AddThenRemoveRow | frontend/src/AdminPanel.js:538 | adding a row and removing it again restores the rows |
| AdminPanel.PanelMatches | frontend/src/AdminPanel.js:181-184 | a product whose name contains the term case-insensitively matches, and the empty term matches every product |
| AdminPanel.FilteredProductos | frontend/src/AdminPanel.js:181-184 | a product is kept exactly when its name, or its non-empty category, contains the term case-insensitively |
| AdminPanel.FilteredProductosOrder | frontend/src/AdminPanel.js:181-184 | the result is an order-preserving sublist, and an empty search keeps everything |
| AdminPanel.BlankForm | frontend/src/AdminPanel.js:344-351 | the blank form holds an empty row array |
| AdminPanel.FormAfterSaveAsWritten | frontend/src/AdminPanel.js:166 | the form left after a successful save holds no row array |
| AdminPanel.SaveAfterSaveThrows | frontend/src/AdminPanel.js:166 | saving that form builds no body and sends no request |
| AdminPanel.SaveAfterBlankResetBuilds | frontend/src/AdminPanel.js:344-351 | saving the blank form builds the body of an empty product with stock 1 |
| AdminPanel.SaveRequestOf | frontend/src/AdminPanel.js:136-162 | no request exactly when the form holds no row array; otherwise PUT to the edited id when there is one, else POST, carrying the body built from the form |
| AdminPanel.Panel.EditProducto | frontend/src/AdminPanel.js:111-129 | the form becomes the product's form, the product's id is the one edited, and the form view opens |
| AdminPanel.Panel.NuevoProductoButton | frontend/src/AdminPanel.js:344-351 | the form is blank, nothing is being edited, and the form view opens |
| AdminPanel.Panel.SelectView | frontend/src/AdminPanel.js:254 | the side menu changes the view only |
| AdminPanel.Panel.HandleSaveProducto | frontend/src/AdminPanel.js:131-179 | sends the request `SaveRequestOf` gives for the form and edited id; when one is sent and accepted, the form becomes the reset form the code writes (with no row array), nothing is edited and the list shows; otherwise nothing changes |
| AdminPanel.Panel.ResetAfterSave | frontend/src/AdminPanel.js:166-168 | the form becomes the reset form the code writes, nothing is edited and the product list shows |
| AdminPanel.Panel.OpenFromMenuAndSave | frontend/src/AdminPanel.js:253 | with a form that holds no row array, the side menu's "Nuevo Producto" shows it unchanged and saving sends nothing |
| AdminPanel.Panel.SaveThenOpenFromMenu | frontend/src/AdminPanel.js:131-179 | a save from a form with rows sends a request; once accepted, "Nuevo Producto" in the side menu opens a form without rows, whose save sends nothing |
| AdminPanel.Panel.AddImageRow | frontend/src/AdminPanel.js:538 | the form's rows get an empty row at the end |
| AdminPanel.Panel.RemoveImageRow | frontend/src/AdminPanel.js:526-529 | the form's rows lose the row at the index |
| AdminPanel.Panel.EditRowColor | frontend/src/AdminPanel.js:505-509 | the colour of the row at the index is replaced |
| AdminPanel.Panel.EditRowUrl | frontend/src/AdminPanel.js:516-520 | the URL of the row at the index is replaced |

## Findings

| source | as written | input that shows it | evidently intended | confidence | as-written member | corrected member |
|---|---|---|---|---|---|---|
| frontend/src/AdminPanel.js:166 | after a successful save the form is reset to an object without `imagenPrincipal` and `imagenesPorColor` | save any product, then choose "Nuevo Producto" in the side menu, which changes only the view; the form's row list and the next save call `map` on `undefined` and throw | reset to the same blank form as the "Nuevo Producto" button of the product list, with an empty row array | high; not executed | AdminPanel.SaveAfterSaveThrows | AdminPanel.SaveAfterBlankResetBuilds |

`AdminPanel.Panel` follows the code as written: `HandleSaveProducto` resets to `FormAfterSaveAsWritten`, and `SaveThenOpenFromMenu` shows the next save from the side menu sending nothing. The "Nuevo Producto" button of the product list (`AdminPanel.Panel.NuevoProductoButton`) sets the blank form, and `SaveAfterBlankResetBuilds` is the property the evident fix restores.

## Left out

- HTTP and Express wiring, CORS, `fetch`, `localStorage`, `alert`, `confirm`, `window.open`, JSX rendering and data loading are left out. They are I/O and UI.
- The WhatsApp message and `encodeURIComponent` are left out: the message is library encoding plus an external redirect.
- bcrypt and jsonwebtoken are uninterpreted functions, and the secret and the clock are parameters. That a bcrypt hash differs from the raw password is not provable here; the model shows that the stored value is the hash of the password.
- bcrypt's random salt is not modelled: `hash` is a deterministic function of the password, so two registrations with the same password store the same value here, where bcrypt would store different ones.
- Prices are integer cents. parseFloat is not modelled: the request carries its result, with None for NaN. Floating-point rounding of `precio * cantidad` is not modelled.
- Number-to-string conversion covers integers in their plain decimal form. Exponent notation for numbers of 10^21 and above is not modelled.
- Lower-casing covers ASCII letters only.
- Document ids are natural numbers drawn from a counter. A malformed ObjectId string, which makes Mongoose answer 500, is not modelled.
- Server.SortNewestFirst: MongoDB leaves the order of documents with equal `createdAt` unspecified; the model fixes one order.
- The MongoDB connection, Cloudinary and multer setup, and the unused upload handler are left out as infrastructure.
- Internal errors that answer 500 with the exception's message are left out, except the Mongoose cast and validation failures above. The messages of those are placeholders.
- Concurrent requests are left out: the code has no coordination.
- AdminPanel.EditForm: the branch that takes `imagenesPorColor` from the product is not modelled. The product schema has no such field, so the backend never returns it and the rebuild from colours and images always applies.
- AdminPanel.SetRowColor: the row editors copy the array but assign to the shared row object, so the previous form state is changed in place too. The model works on row values and does not capture that aliasing.
- AdminPanel.FormAfterSaveAsWritten: the missing `imagenPrincipal` is modelled as ''. It is dropped from the body either way.
- Server.NewProducto: an absent `descripcion` or `categoria` is stored as '' rather than left out of the document; no route reads the difference.
- AdminPanel.Panel.AddImageRow, RemoveImageRow, EditRowColor and EditRowUrl require the form to hold a row array: without one the row list throws while rendering, so those editors never exist.
- Text.Contains states no contract of its own; `Text.ContainsIffSlice` relates it to the slices of the string.
- The remaining admin panel handlers (login, logout, delete, order status) are outside the modelled core. Each is one request to a route that `Server.Store` models.

=== FILE: admin_panel.dfy ===
/** The administration panel's product form: the request body it builds from the form,
    the form it fills from a stored product, the colour/image rows, and the product
    search. `Panel` holds the component state that its handlers replace. */
module AdminPanel {
  import opened Seqs
  import opened Text
  import opened JsValues
  import opened Catalog
  import Server

  /** One colour/image row of the form. */
  datatype ColorImage = ColorImage(color: string, url: string)

  /** The form state. `colores` is the comma-separated text field; `precio` is the price
      field as parseFloat reads it, in cents (None when it does not read as a number);
      `stock` is a number or the typed text; `imagenesPorColor` is None when the state
      holds no array there. */
  datatype ProductoForm = ProductoForm(
    nombre: string,
    descripcion: string,
    precio: Option<int>,
    categoria: string,
    colores: string,
    stock: JsValue,
    destacado: bool,
    imagenPrincipal: string,
    imagenesPorColor: Option<seq<ColorImage>>)

  /** The JSON body of the save request. `stock` is what parseInt in base 10 reads from
      the field, serialized: a number, or null for NaN. */
  datatype ProductData = ProductData(
    nombre: string,
    descripcion: string,
    precio: Option<int>,
    categoria: string,
    colores: seq<string>,
    stock: JsValue,
    destacado: bool,
    imagenes: seq<string>,
    imagenesPorColor: seq<ColorImage>)

  /** A colour as saved: not empty, no surrounding white space, no comma. */
  predicate CleanColour(c: string) {
    c != "" && IsTrimmed(c) && ',' !in c
  }

  predicate CleanColours(cs: seq<string>) {
    forall k :: 0 <= k < |cs| ==> CleanColour(cs[k])
  }

  // ---------------------------------------------------------------------------------
  // Form to request body

  /** The colour list of the body: the text split at commas, each piece trimmed, the
      empty pieces dropped. */
  function ParseColores(text: string): (r: seq<string>)
    ensures CleanColours(r)
  {
    TrimmedPieces(Split(text, ','));
    CleanNonEmpty(Map(Split(text, ','), Trim));
    Filter(Map(Split(text, ','), Trim), NonEmpty)
  }

  /** Keeping the non-empty ones of trimmed, comma-free pieces leaves clean colours. */
  lemma CleanNonEmpty(pieces: seq<string>)
    requires forall k :: 0 <= k < |pieces| ==> IsTrimmed(pieces[k]) && ',' !in pieces[k]
    ensures CleanColours(Filter(pieces, NonEmpty))
  {
    var r := Filter(pieces, NonEmpty);
    forall k | 0 <= k < |r| ensures CleanColour(r[k]) {
      var m :| 0 <= m < |pieces| && pieces[m] == r[k];
    }
  }

  /** Trimmed pieces of a split on ',' hold no comma and are trimmed. */
  lemma TrimmedPieces(pieces: seq<string>)
    requires forall k :: 0 <= k < |pieces| ==> ',' !in pieces[k]
    ensures forall k :: 0 <= k < |pieces| ==> IsTrimmed(Map(pieces, Trim)[k]) && ',' !in Map(pieces, Trim)[k]
  {
    forall k | 0 <= k < |pieces| ensures IsTrimmed(Map(pieces, Trim)[k]) && ',' !in Map(pieces, Trim)[k] {
      TrimKeepsOut(pieces[k], ',');
    }
  }

  function Url(row: ColorImage): string { row.url }

  predicate Complete(row: ColorImage) { row.color != "" && row.url != "" }

  /** The main image, then the row URLs, dropping empty ones. */
  function Imagenes(principal: string, rows: seq<ColorImage>): (r: seq<string>)
    ensures forall k :: 0 <= k < |r| ==> r[k] != ""
  {
    Filter([principal] + Map(rows, Url), NonEmpty)
  }

  /** The saved image list is the main image when it is set, followed by the non-empty
      row URLs in row order. */
  lemma ImagenesOrder(principal: string, rows: seq<ColorImage>)
    ensures Imagenes(principal, rows) == (if principal != "" then [principal] else []) + Filter(Map(rows, Url), NonEmpty)
  {
    FilterAppend([principal], Map(rows, Url), NonEmpty);
  }

  /** The body handleSaveProducto sends, or None when `imagenesPorColor` holds no array
      and building the body throws a TypeError before any request is made. */
  function BuildProductData(form: ProductoForm): (r: Option<ProductData>)
    ensures r.None? <==> form.imagenesPorColor.None?
    ensures r.Some? ==> && CleanColours(r.value.colores)
                        && (forall k :: 0 <= k < |r.value.imagenes| ==> r.value.imagenes[k] != "")
                        && forall k :: 0 <= k < |r.value.imagenesPorColor| ==> Complete(r.value.imagenesPorColor[k])
  {
    match form.imagenesPorColor
    case None => None
    case Some(rows) =>
      Some(ProductData(
        nombre := form.nombre,
        descripcion := form.descripcion,
        precio := form.precio,
        categoria := form.categoria,
        colores := ParseColores(form.colores),
        stock := match ParseInt(form.stock, true) case Some(n) => Num(n) case None => Null,
        destacado := form.destacado,
        imagenes := Imagenes(form.imagenPrincipal, rows),
        imagenesPorColor := Filter(rows, Complete)))
  }

  /** The saved rows are the complete ones, in row order. */
  lemma SavedRowsOrder(form: ProductoForm)
    requires form.imagenesPorColor.Some?
    ensures IsSubsequence(BuildProductData(form).value.imagenesPorColor, form.imagenesPorColor.value)
    ensures forall k :: 0 <= k < |form.imagenesPorColor.value| && Complete(form.imagenesPorColor.value[k]) ==>
              form.imagenesPorColor.value[k] in BuildProductData(form).value.imagenesPorColor
  {
    FilterIsSubsequence(form.imagenesPorColor.value, Complete);
  }

  /** The body as the backend reads it: the panel always sends the strings and arrays,
      `destacado` as a JSON boolean, and neither `activo` nor `videos`. */
  function AsBody(d: ProductData): (r: Server.ProductoBody)
    ensures !IsTrueString(r.destacado) && !IsTrueString(r.activo)
    ensures r.nombre == Some(d.nombre) && r.colores == Some(d.colores) && r.imagenes == Some(d.imagenes)
    ensures r.precio == d.precio && r.stock == d.stock
    ensures r.descripcion == Some(d.descripcion) && r.categoria == Some(d.categoria) && r.videos.None?
  {
    Server.ProductoBody(
      nombre := Some(d.nombre),
      descripcion := Some(d.descripcion),
      precio := d.precio,
      categoria := Some(d.categoria),
      colores := Some(d.colores),
      stock := d.stock,
      destacado := Bool(d.destacado),
      activo := Undefined,
      imagenes := Some(d.imagenes),
      videos := None)
  }

  /** The backend compares `destacado` and `activo` with the string 'true', so whatever
      the checkbox says a panel save stores `destacado` false, and an update through the
      panel also stores `activo` false. */
  lemma PanelSaveFlags(form: ProductoForm, p: Producto, id: Id, now: Time)
    requires form.imagenesPorColor.Some?
    ensures var body := AsBody(BuildProductData(form).value);
            && (Server.NewProducto(body, id, now).Ok? ==>
                  !Server.NewProducto(body, id, now).body.destacado && Server.NewProducto(body, id, now).body.activo)
            && (Server.UpdateCasts(body) ==>
                  !Server.UpdatedProducto(p, body).destacado && !Server.UpdatedProducto(p, body).activo)
  {
  }

  /** So a product updated through the panel disappears from every public listing. */
  lemma PanelUpdateHidesProduct(form: ProductoForm, p: Producto, q: Server.ListQuery)
    requires form.imagenesPorColor.Some?
    requires Server.UpdateCasts(AsBody(BuildProductData(form).value))
    ensures !Server.Listed(q, Server.UpdatedProducto(p, AsBody(BuildProductData(form).value)))
  {
    PanelSaveFlags(form, p, 0, 0);
  }

  /** An empty stock field reaches the backend as null: a create stores stock 1 and an
      update fails with 500. */
  lemma EmptyStockField(form: ProductoForm, id: Id, now: Time)
    requires form.imagenesPorColor.Some? && form.stock == Str("")
    ensures var body := AsBody(BuildProductData(form).value);
            && body.stock == Null
            && Server.StockOnCreate(body.stock) == 1
            && !Server.UpdateCasts(body)
  {
    EmptyStockIsNull(form);
    Server.StockOnCreateCases(Null);
  }

  lemma EmptyStockIsNull(form: ProductoForm)
    requires form.imagenesPorColor.Some? && form.stock == Str("")
    ensures BuildProductData(form).value.stock == Null
  {
    assert TrimStart("") == "";
    assert DigitPrefix("", 10) == [];
    assert ParseInt(form.stock, true) == None;
  }

  // ---------------------------------------------------------------------------------
  // Stored product to form (editProducto)

  /** The rows rebuilt from a product: the colours after the first, each paired with the
      image at the same position, or '' past the last image; none unless the product
      has at least two images. */
  function RowsOf(prod: Producto): (r: seq<ColorImage>)
    ensures |prod.imagenes| > 1 && |prod.colores| >= 1 ==> |r| == |prod.colores| - 1
    ensures |prod.imagenes| <= 1 || prod.colores == [] ==> r == []
    ensures forall k :: 0 <= k < |r| ==>
              && k + 1 < |prod.colores| && r[k].color == prod.colores[k + 1]
              && r[k].url == if k + 1 < |prod.imagenes| then prod.imagenes[k + 1] else ""
  {
    if |prod.imagenes| > 1 && |prod.colores| >= 1 then
      seq(|prod.colores| - 1, k requires 0 <= k < |prod.colores| - 1 =>
        ColorImage(prod.colores[k + 1], if k + 1 < |prod.imagenes| then prod.imagenes[k + 1] else ""))
    else []
  }

  /** The form editProducto fills. */
  function EditForm(prod: Producto): (r: ProductoForm)
    ensures r.imagenPrincipal == if prod.imagenes == [] then "" else prod.imagenes[0]
    ensures r.imagenesPorColor.Some?
  {
    ProductoForm(
      nombre := prod.nombre,
      descripcion := prod.descripcion,
      precio := Some(prod.precio),
      categoria := prod.categoria,
      colores := Join(prod.colores, ", "),
      stock := Num(prod.stock),
      destacado := prod.destacado,
      imagenPrincipal := if |prod.imagenes| > 0 then prod.imagenes[0] else "",
      imagenesPorColor := Some(RowsOf(prod)))
  }

  function Spaced(c: string): string { " " + c }

  /** Joining with ', ' is joining with ',' after putting a space in front of every
      piece but the first. */
  lemma {:induction false} JoinSpaced(cs: seq<string>)
    requires |cs| >= 1
    ensures " " + Join(cs, ", ") == Join(Map(cs, Spaced), ",")
  {
    if |cs| > 1 {
      JoinSpaced(cs[1..]);
      assert Map(cs, Spaced)[1..] == Map(cs[1..], Spaced);
      calc {
        " " + Join(cs, ", ");
        " " + cs[0] + "," + (" " + Join(cs[1..], ", "));
        Join(Map(cs, Spaced), ",");
      }
    }
  }

  /** The pieces a joined colour list splits into on ','. */
  function SpacedPieces(cs: seq<string>): seq<string>
    requires |cs| >= 1
  {
    [cs[0]] + Map(cs[1..], Spaced)
  }

  /** One step of a join, and the regrouping of ', ' (kept apart so that the proof
      below stays small). */
  lemma JoinStep(xs: seq<string>, sep: string)
    requires |xs| > 1
    ensures Join(xs, sep) == xs[0] + sep + Join(xs[1..], sep)
  {
  }

  lemma CommaSpace(a: string, rest: string)
    ensures a + ", " + rest == a + "," + (" " + rest)
  {
  }

  lemma JoinAsCommaJoin(cs: seq<string>)
    requires |cs| >= 1
    ensures Join(cs, ", ") == Join(SpacedPieces(cs), ",")
  {
    var pieces := SpacedPieces(cs);
    if |cs| > 1 {
      JoinSpaced(cs[1..]);
      assert pieces[1..] == Map(cs[1..], Spaced);
      JoinStep(pieces, ",");
      JoinStep(cs, ", ");
      CommaSpace(cs[0], Join(cs[1..], ", "));
    }
  }

  lemma SpacedPiecesNoComma(cs: seq<string>)
    requires |cs| >= 1 && CleanColours(cs)
    ensures forall k :: 0 <= k < |SpacedPieces(cs)| ==> ',' !in SpacedPieces(cs)[k]
  {
    var pieces := SpacedPieces(cs);
    forall k | 0 <= k < |pieces| ensures ',' !in pieces[k] {
      assert CleanColour(cs[k]);
      if k > 0 {
        assert pieces[k] == " " + cs[k];
      }
    }
  }

  /** Splitting the joined text on ',' gives the colours, every one after the first
      with the space the join put in front of it. */
  lemma SplitJoinedColours(cs: seq<string>)
    requires |cs| >= 1 && CleanColours(cs)
    ensures Split(Join(cs, ", "), ',') == SpacedPieces(cs)
  {
    JoinAsCommaJoin(cs);
    SpacedPiecesNoComma(cs);
    SplitJoin(SpacedPieces(cs), ',');
  }

  /** Round trip: a clean colour list written into the form and parsed back is the
      same list. */
  lemma ColoresRoundTrip(cs: seq<string>)
    requires CleanColours(cs)
    ensures ParseColores(Join(cs, ", ")) == cs
  {
    if cs == [] {
      assert Trim("") == "";
      assert Map([""], Trim) == [""];
    } else {
      SplitJoinedColours(cs);
      TrimSpacedPieces(cs);
      FilterAll(cs, NonEmpty);
    }
  }

  /** Trimming the pieces takes the spaces off again. */
  lemma TrimSpacedPieces(cs: seq<string>)
    requires |cs| >= 1 && CleanColours(cs)
    ensures Map(SpacedPieces(cs), Trim) == cs
  {
    var trimmed := Map(SpacedPieces(cs), Trim);
    assert |trimmed| == |cs|;
    forall k | 0 <= k < |cs| ensures trimmed[k] == cs[k] {
      TrimPiece(cs, k);
    }
  }

  lemma TrimPiece(cs: seq<string>, k: nat)
    requires |cs| >= 1 && CleanColours(cs) && k < |cs|
    ensures Trim(SpacedPieces(cs)[k]) == cs[k]
  {
    assert CleanColour(cs[k]);
    if k == 0 {
      TrimOfTrimmed(cs[0]);
    } else {
      assert SpacedPieces(cs)[k] == Spaced(cs[1..][k - 1]) == " " + cs[k];
      TrimAfterSpace(cs[k]);
    }
  }

  /** How many images survive an edit and an unchanged save: as many as there are
      colours, at least one, and never more than the product has. */
  function KeptImages(prod: Producto): (r: nat)
    ensures r <= |prod.imagenes|
    ensures |prod.imagenes| > 0 ==> r >= 1
    ensures |prod.colores| >= 1 ==> r <= |prod.colores|
  {
    if |prod.imagenes| == 0 then 0
    else if |prod.colores| <= 1 then 1
    else if |prod.colores| < |prod.imagenes| then |prod.colores|
    else |prod.imagenes|
  }

  /** Editing a product and saving the form unchanged keeps its first `KeptImages`
      images: images past the number of colours are lost. */
  lemma {:induction false} EditSaveImages(prod: Producto)
    requires forall k :: 0 <= k < |prod.imagenes| ==> prod.imagenes[k] != ""
    ensures BuildProductData(EditForm(prod)).value.imagenes == prod.imagenes[..KeptImages(prod)]
  {
    SavedImagenes(EditForm(prod));
    RebuiltImagenes(prod);
  }

  lemma SavedImagenes(form: ProductoForm)
    requires form.imagenesPorColor.Some?
    ensures BuildProductData(form).value.imagenes == Imagenes(form.imagenPrincipal, form.imagenesPorColor.value)
  {
  }

  /** The row URLs rebuilt from a product with at least two images and one colour: the
      images after the first, up to the number of colours, then empty URLs. */
  lemma RowUrls(prod: Producto)
    requires |prod.imagenes| > 1 && |prod.colores| >= 1
    ensures var n := KeptImages(prod);
            && 1 <= n <= |prod.imagenes| && n <= |prod.colores|
            && Map(RowsOf(prod), Url) == prod.imagenes[1..n] + seq(|prod.colores| - n, _ => "")
  {
    var n := KeptImages(prod);
    var urls := Map(RowsOf(prod), Url);
    var expected := prod.imagenes[1..n] + seq(|prod.colores| - n, _ => "");
    assert |urls| == |expected|;
    forall k | 0 <= k < |urls| ensures urls[k] == expected[k] {
      if k < n - 1 {
        assert expected[k] == prod.imagenes[k + 1];
      } else {
        assert expected[k] == "";
      }
    }
  }

  /** Of the rebuilt rows, the save keeps the URLs of the images after the first, up to
      the number of colours. */
  lemma SavedRowUrls(prod: Producto)
    requires forall k :: 0 <= k < |prod.imagenes| ==> prod.imagenes[k] != ""
    requires |prod.imagenes| > 1 && |prod.colores| >= 1
    ensures Filter(Map(RowsOf(prod), Url), NonEmpty) == prod.imagenes[1..KeptImages(prod)]
  {
    RowUrls(prod);
    var present := prod.imagenes[1..KeptImages(prod)];
    var blanks: seq<string> := seq(|prod.colores| - KeptImages(prod), _ => "");
    FilterAll(present, NonEmpty);
    FilterNone(blanks, NonEmpty);
    FilterAppend(present, blanks, NonEmpty);
    assert present + [] == present;
  }

  /** Main image and rebuilt rows, saved again, give the first `KeptImages` images. */
  lemma RebuiltImagenes(prod: Producto)
    requires forall k :: 0 <= k < |prod.imagenes| ==> prod.imagenes[k] != ""
    ensures Imagenes(if |prod.imagenes| > 0 then prod.imagenes[0] else "", RowsOf(prod)) == prod.imagenes[..KeptImages(prod)]
  {
    var principal := if |prod.imagenes| > 0 then prod.imagenes[0] else "";
    ImagenesOrder(principal, RowsOf(prod));
    if |prod.imagenes| <= 1 || |prod.colores| == 0 {
      NoRowUrls(prod);
      FewImagesKept(prod);
    } else {
      SavedRowUrls(prod);
      FirstAndRest(prod.imagenes, KeptImages(prod));
    }
  }

  /** With at most one image or no colour, only the main image (if any) is kept. */
  lemma FewImagesKept(prod: Producto)
    requires forall k :: 0 <= k < |prod.imagenes| ==> prod.imagenes[k] != ""
    requires |prod.imagenes| <= 1 || |prod.colores| == 0
    ensures var principal := if |prod.imagenes| > 0 then prod.imagenes[0] else "";
            prod.imagenes[..KeptImages(prod)] == (if principal != "" then [principal] else [])
  {
    if |prod.imagenes| > 0 {
      assert KeptImages(prod) == 1;
      assert prod.imagenes[..1] == [prod.imagenes[0]];
    }
  }

  lemma FirstAndRest(s: seq<string>, n: nat)
    requires 1 <= n <= |s|
    ensures s[..n] == [s[0]] + s[1..n]
  {
  }

  /** With at most one image or no colour there are no rows, hence no row URLs. */
  lemma NoRowUrls(prod: Producto)
    requires |prod.imagenes| <= 1 || |prod.colores| == 0
    ensures Filter(Map(RowsOf(prod), Url), NonEmpty) == []
  {
    assert RowsOf(prod) == [];
    assert Map(RowsOf(prod), Url) == [];
  }

  /** An edit followed by an unchanged save gives back the colour list whenever it is
      clean. */
  lemma EditSaveColores(prod: Producto)
    requires CleanColours(prod.colores)
    ensures BuildProductData(EditForm(prod)).value.colores == prod.colores
  {
    ColoresRoundTrip(prod.colores);
  }

  /** The body an unchanged save of the edit form sends, field by field. */
  lemma EditSaveBody(prod: Producto)
    requires CleanColours(prod.colores)
    requires forall k :: 0 <= k < |prod.imagenes| ==> prod.imagenes[k] != ""
    requires |prod.imagenes| <= 1 || |prod.imagenes| <= |prod.colores|
    ensures AsBody(BuildProductData(EditForm(prod)).value) ==
            Server.ProductoBody(Some(prod.nombre), Some(prod.descripcion), Some(prod.precio), Some(prod.categoria),
                                Some(prod.colores), Num(prod.stock), Bool(prod.destacado), Undefined,
                                Some(prod.imagenes), None)
  {
    EditSaveData(prod);
  }

  /** The same, for the data before it is read as a request body. */
  lemma EditSaveData(prod: Producto)
    requires CleanColours(prod.colores)
    requires forall k :: 0 <= k < |prod.imagenes| ==> prod.imagenes[k] != ""
    requires |prod.imagenes| <= 1 || |prod.imagenes| <= |prod.colores|
    ensures var data := BuildProductData(EditForm(prod)).value;
            && data.nombre == prod.nombre && data.descripcion == prod.descripcion
            && data.precio == Some(prod.precio) && data.categoria == prod.categoria
            && data.colores == prod.colores && data.stock == Num(prod.stock)
            && data.destacado == prod.destacado && data.imagenes == prod.imagenes
  {
    EditSaveColores(prod);
    EditSaveImages(prod);
    KeptAllImages(prod);
    EditSaveStock(prod);
  }

  /** With at most one image, or no more images than colours, every image is kept. */
  lemma KeptAllImages(prod: Producto)
    requires |prod.imagenes| <= 1 || |prod.imagenes| <= |prod.colores|
    ensures prod.imagenes[..KeptImages(prod)] == prod.imagenes
  {
    assert KeptImages(prod) == |prod.imagenes|;
  }

  /** The stock field holds the product's stock, and parseInt reads it back. */
  lemma EditSaveStock(prod: Producto)
    ensures BuildProductData(EditForm(prod)).value.stock == Num(prod.stock)
  {
    assert EditForm(prod).stock == Num(prod.stock);
  }

  /** Editing a product and saving it unchanged through PUT leaves it as it was except
      that `videos` is emptied and `destacado` and `activo` become false, provided its
      colours are clean and it has no image beyond what its colour rows carry. */
  lemma EditThenSaveUnchanged(prod: Producto)
    requires CleanColours(prod.colores)
    requires forall k :: 0 <= k < |prod.imagenes| ==> prod.imagenes[k] != ""
    requires |prod.imagenes| <= 1 || |prod.imagenes| <= |prod.colores|
    ensures var body := AsBody(BuildProductData(EditForm(prod)).value);
            && Server.UpdateCasts(body)
            && Server.UpdatedProducto(prod, body) == prod.(videos := [], destacado := false, activo := false)
  {
    EditSaveBody(prod);
  }

  /** A product with more images than colours loses the extra images on an unchanged
      save: one colour and two images keep only the first image. */
  lemma EditSaveDropsExtraImage(prod: Producto)
    requires prod.colores == ["Negro"] && prod.imagenes == ["a.jpg", "b.jpg"]
    ensures BuildProductData(EditForm(prod)).value.imagenes == ["a.jpg"]
  {
    assert KeptImages(prod) == 1;
    EditSaveImages(prod);
    assert prod.imagenes[..1] == ["a.jpg"];
  }

  // ---------------------------------------------------------------------------------
  // Colour/image rows

  /** A new, empty row at the end. */
  function AddRow(rows: seq<ColorImage>): (r: seq<ColorImage>)
    ensures |r| == |rows| + 1 && r[..|rows|] == rows && r[|rows|] == ColorImage("", "")
  {
    rows + [ColorImage("", "")]
  }

  /** The delete button's filter: every row is kept except the one at position `index`. */
  function RemoveRowAt(rows: seq<ColorImage>, index: nat): (r: seq<ColorImage>)
    ensures r == if index < |rows| then rows[..index] + rows[index + 1..] else rows
  {
    RowsExcept(rows, index, 0)
  }

  /** The filter walking the rows from position `from` on, keeping those whose position
      is not `index`. */
  function RowsExcept(rows: seq<ColorImage>, index: nat, from: nat): (r: seq<ColorImage>)
    ensures r == if from <= index < from + |rows| then rows[..index - from] + rows[index - from + 1..] else rows
  {
    if rows == [] then []
    else
      var rest := RowsExcept(rows[1..], index, from + 1);
      assert rows == [rows[0]] + rows[1..];
      if from == index then
        assert rest == rows[1..];
        assert rows[..0] + rows[1..] == rows[1..];
        rest
      else if from < index < from + |rows| then
        assert rows[1..][..index - from - 1] == rows[1..index - from];
        assert rows[1..][index - from..] == rows[index - from + 1..];
        assert rows[..index - from] == [rows[0]] + rows[1..index - from];
        [rows[0]] + rest
      else
        assert rest == rows[1..];
        [rows[0]] + rest
  }

  /** The row at `index` with a new colour; the others as they were. */
  function SetRowColor(rows: seq<ColorImage>, index: nat, color: string): (r: seq<ColorImage>)
    requires index < |rows|
    ensures |r| == |rows| && r[index].color == color && r[index].url == rows[index].url
    ensures forall k :: 0 <= k < |rows| && k != index ==> r[k] == rows[k]
  {
    rows[index := rows[index].(color := color)]
  }

  /** The row at `index` with a new URL; the others as they were. */
  function SetRowUrl(rows: seq<ColorImage>, index: nat, url: string): (r: seq<ColorImage>)
    requires index < |rows|
    ensures |r| == |rows| && r[index].url == url && r[index].color == rows[index].color
    ensures forall k :: 0 <= k < |rows| && k != index ==> r[k] == rows[k]
  {
    rows[index := rows[index].(url := url)]
  }

  /** Adding a row and removing it again restores the rows. */
  lemma AddThenRemoveRow(rows: seq<ColorImage>)
    ensures RemoveRowAt(AddRow(rows), |rows|) == rows
  {
    assert AddRow(rows)[..|rows|] == rows;
  }

  // ---------------------------------------------------------------------------------
  // Product search

  /** The panel's search: by name, or by category when the product has one. */
  predicate PanelMatches(searchTerm: string, p: Producto)
    ensures Contains(Lower(p.nombre), Lower(searchTerm)) ==> PanelMatches(searchTerm, p)
    ensures searchTerm == "" ==> PanelMatches(searchTerm, p)
  {
    ContainsEmpty(Lower(p.nombre));
    || Contains(Lower(p.nombre), Lower(searchTerm))
    || (p.categoria != "" && Contains(Lower(p.categoria), Lower(searchTerm)))
  }

  /** filteredProductos. */
  function FilteredProductos(ps: seq<Producto>, searchTerm: string): (r: seq<Producto>)
    ensures forall p :: p in r <==> p in ps && PanelMatches(searchTerm, p)
  {
    Filter(ps, (p: Producto) => PanelMatches(searchTerm, p))
  }

  /** The search keeps catalogue order and an empty search shows every product. */
  lemma FilteredProductosOrder(ps: seq<Producto>, searchTerm: string)
    ensures IsSubsequence(FilteredProductos(ps, searchTerm), ps)
    ensures FilteredProductos(ps, "") == ps
  {
    FilterIsSubsequence(ps, (p: Producto) => PanelMatches(searchTerm, p));
    forall k | 0 <= k < |ps| ensures PanelMatches("", ps[k]) {
      ContainsEmpty(Lower(ps[k].nombre));
    }
    FilterAll(ps, (p: Producto) => PanelMatches("", p));
  }

  // ---------------------------------------------------------------------------------
  // Form resets

  /** The empty form of the "Nuevo Producto" button. */
  function BlankForm(): (r: ProductoForm)
    ensures r.imagenesPorColor == Some([])
  {
    ProductoForm("", "", None, "", "", Num(1), false, "", Some([]))
  }

  /** The form left after a successful save as the code writes it: the reset object has
      no `imagenPrincipal` and no `imagenesPorColor`. */
  function FormAfterSaveAsWritten(): (r: ProductoForm)
    ensures r.imagenesPorColor.None?
  {
    ProductoForm("", "", None, "", "", Num(1), false, "", None)
  }

  /** After that reset, opening the form from the side menu (which does not reset it)
      and saving throws before any request is sent. */
  lemma SaveAfterSaveThrows()
    ensures BuildProductData(FormAfterSaveAsWritten()) == None
    ensures SaveRequestOf(FormAfterSaveAsWritten(), None) == None
  {
  }

  /** With the blank form as the reset, the next save builds a body: an empty product
      with stock 1. */
  lemma SaveAfterBlankResetBuilds()
    ensures BuildProductData(BlankForm()) == Some(ProductData("", "", None, "", [], Num(1), false, [], []))
  {
    assert Trim("") == "";
    assert Map([""], Trim) == [""];
    assert Imagenes("", []) == [];
  }

  // ---------------------------------------------------------------------------------
  // Component state

  datatype View = Dashboard | Productos | Pedidos | NuevoProducto

  /** The request handleSaveProducto sends: PUT to the product being edited, else POST. */
  datatype SaveRequest = Put(id: Id, data: ProductData) | Post(data: ProductData)

  /** The request a save sends: PUT to the product being edited, else POST, of the body
      built from the form; none when building the body throws. */
  function SaveRequestOf(form: ProductoForm, editingId: Option<Id>): (r: Option<SaveRequest>)
    ensures r.None? <==> form.imagenesPorColor.None?
    ensures r.Some? ==> r.value.data == BuildProductData(form).value
    ensures r.Some? ==> (r.value.Put? <==> editingId.Some?)
    ensures r.Some? && r.value.Put? ==> r.value.id == editingId.value
  {
    match BuildProductData(form)
    case None => None
    case Some(data) => if editingId.Some? then Some(Put(editingId.value, data)) else Some(Post(data))
  }

  class Panel {
    var form: ProductoForm
    var editingId: Option<Id>
    var view: View

    /** The initial state: the empty form with an empty row array, on the dashboard. */
    constructor ()
      ensures form == BlankForm() && editingId == None && view == Dashboard
    {
      form := BlankForm();
      editingId := None;
      view := Dashboard;
    }

    /** editProducto. */
    method EditProducto(prod: Producto)
      modifies this
      ensures form == EditForm(prod) && editingId == Some(prod.id) && view == NuevoProducto
      ensures form.imagenesPorColor.Some?
    {
      editingId := Some(prod.id);
      form := EditForm(prod);
      view := NuevoProducto;
    }

    /** The "Nuevo Producto" button of the product list. */
    method NuevoProductoButton()
      modifies this
      ensures form == BlankForm() && editingId == None && view == NuevoProducto
      ensures form.imagenesPorColor.Some?
    {
      editingId := None;
      form := BlankForm();
      view := NuevoProducto;
    }

    /** The side menu: changes the view only. */
    method SelectView(v: View)
      modifies this`view
      ensures view == v
    {
      view := v;
    }

    /** handleSaveProducto: sends the request of `SaveRequestOf`. When the form holds no
        row array, building the body throws and nothing is sent or changed. `accepted`
        is whether the backend answered with a success status; only then are the form
        and the edited id reset, to the form without rows that the code writes, and the
        list shown. */
    method HandleSaveProducto(accepted: bool) returns (request: Option<SaveRequest>)
      modifies this
      ensures request == SaveRequestOf(old(form), old(editingId))
      ensures request.Some? && accepted ==>
                form == FormAfterSaveAsWritten() && editingId == None && view == Productos
      ensures request.None? || !accepted ==>
                form == old(form) && editingId == old(editingId) && view == old(view)
    {
      request := SaveRequestOf(form, editingId);
      if request.Some? && accepted {
        ResetAfterSave();
      }
    }

    /** What an accepted save does to the panel: the form is reset (without its row
        array), nothing is being edited, and the product list is shown. */
    method ResetAfterSave()
      modifies this
      ensures form == FormAfterSaveAsWritten() && editingId == None && view == Productos
    {
      form := FormAfterSaveAsWritten();
      editingId := None;
      view := Productos;
    }

    /** A successful save followed by "Nuevo Producto" in the side menu leaves a form
        without rows: the row list cannot render and the next save sends nothing. */
    method SaveThenOpenFromMenu() returns (first: Option<SaveRequest>, second: Option<SaveRequest>)
      requires form.imagenesPorColor.Some?
      modifies this
      ensures first.Some?
      ensures view == NuevoProducto && form.imagenesPorColor.None? && second.None?
    {
      first := HandleSaveProducto(true);
      second := OpenFromMenuAndSave();
    }

    /** With a form that holds no row array, "Nuevo Producto" in the side menu shows the
        form as it is, and saving it sends nothing. */
    method OpenFromMenuAndSave() returns (request: Option<SaveRequest>)
      requires form.imagenesPorColor.None?
      modifies this
      ensures view == NuevoProducto && form == old(form) && request.None?
    {
      SelectView(NuevoProducto);
      request := HandleSaveProducto(false);
    }

    /** The row editors exist only while the row list renders, that is while the form
        holds a row array. */
    method AddImageRow()
      requires form.imagenesPorColor.Some?
      modifies this`form
      ensures form == old(form).(imagenesPorColor := Some(AddRow(old(form).imagenesPorColor.value)))
    {
      form := form.(imagenesPorColor := Some(AddRow(form.imagenesPorColor.value)));
    }

    method RemoveImageRow(index: nat)
      requires form.imagenesPorColor.Some?
      modifies this`form
      ensures form == old(form).(imagenesPorColor := Some(RemoveRowAt(old(form).imagenesPorColor.value, index)))
    {
      form := form.(imagenesPorColor := Some(RemoveRowAt(form.imagenesPorColor.value, index)));
    }

    method EditRowColor(index: nat, color: string)
      requires form.imagenesPorColor.Some? && index < |form.imagenesPorColor.value|
      modifies this`form
      ensures form == old(form).(imagenesPorColor := Some(SetRowColor(old(form).imagenesPorColor.value, index, color)))
    {
      form := form.(imagenesPorColor := Some(SetRowColor(form.imagenesPorColor.value, index, color)));
    }

    method EditRowUrl(index: nat, url: string)
      requires form.imagenesPorColor.Some? && index < |form.imagenesPorColor.value|
      modifies this`form
      ensures form == old(form).(imagenesPorColor := Some(SetRowUrl(old(form).imagenesPorColor.value, index, url)))
    {
      form := form.(imagenesPorColor := Some(SetRowUrl(form.imagenesPorColor.value, index, url)));
    }
  }
}

=== FILE: catalog.dfy ===
/** The three document shapes the backend stores (its Admin, Producto and Pedido
    schemas) and that both front ends receive as JSON. */
module Catalog {
  import opened JsValues

  /** Document identifiers (MongoDB ObjectIds), drawn from a counter by the store. */
  type Id = nat

  /** Timestamps, in seconds; only their order matters for `createdAt`. */
  type Time = int

  /** An administrator; `password` holds the bcrypt hash, never the raw password. */
  datatype Admin = Admin(id: Id, email: string, password: string, nombre: string)

  /** A product. Prices are integer cents; a string field the request left out is "". */
  datatype Producto = Producto(
    id: Id,
    nombre: string,
    descripcion: string,
    precio: int,
    imagenes: seq<string>,
    videos: seq<string>,
    categoria: string,
    colores: seq<string>,
    stock: int,
    destacado: bool,
    activo: bool,
    createdAt: Time)

  datatype Cliente = Cliente(nombre: string, email: string, telefono: string, direccion: string)

  /** One line of an order: a snapshot of the product when the order was placed. */
  datatype Linea = Linea(productoId: Id, nombre: string, precio: int, cantidad: int, imagen: string)

  /** An order. `total` is whatever the client sent (None when it sent none); `notas` is
      absent until an administrator writes one. */
  datatype Pedido = Pedido(
    id: Id,
    cliente: Cliente,
    productos: seq<Linea>,
    total: Option<int>,
    estado: string,
    notas: Option<string>,
    createdAt: Time)

  /** The schema default of `estado`. */
  const Pendiente := "pendiente"
}

=== FILE: js_values.dfy ===
/** The loosely typed values that travel in the JSON request bodies, and the global
    parseInt that the server and the admin panel apply to them. */
module JsValues {
  import opened Text

  datatype Option<T> = None | Some(value: T) {
    function GetOr(default: T): T {
      match this
      case Some(v) => v
      case None => default
    }
  }

  function ToInt(o: Option<nat>): Option<int> {
    match o
    case Some(n) => Some(n)
    case None => None
  }

  function Negate(o: Option<nat>): Option<int> {
    match o
    case Some(n) => Some(-(n as int))
    case None => None
  }

  /** A scalar JSON field as JavaScript sees it after parsing the body. Numbers are
      modelled as integers (prices elsewhere are integer cents). */
  datatype JsValue = Undefined | Null | Bool(b: bool) | Num(n: int) | Str(s: string)

  /** Strict equality with the string 'true': the boolean true does not pass. */
  predicate IsTrueString(v: JsValue) {
    v == Str("true")
  }

  predicate IsDecimalDigit(c: char) {
    '0' <= c <= '9'
  }

  /** The value of `c` as a digit in base `radix` (10 or 16), if it is one. */
  function DigitValue(c: char, radix: nat): Option<nat> {
    if '0' <= c <= '9' && (c as int - '0' as int) < radix then Some(c as int - '0' as int)
    else if radix == 16 && 'a' <= c <= 'f' then Some(c as int - 'a' as int + 10)
    else if radix == 16 && 'A' <= c <= 'F' then Some(c as int - 'A' as int + 10)
    else None
  }

  /** The longest prefix of `s` made of digits of base `radix`. */
  function DigitPrefix(s: string, radix: nat): (r: string)
    ensures r <= s
    ensures forall k :: 0 <= k < |r| ==> DigitValue(r[k], radix).Some?
    ensures |r| < |s| ==> DigitValue(s[|r|], radix).None?
  {
    if s != [] && DigitValue(s[0], radix).Some? then [s[0]] + DigitPrefix(s[1..], radix) else []
  }

  /** The number written by the digits `ds`, most significant first. */
  function DigitsValue(ds: string, radix: nat): nat
  {
    if ds == [] then 0
    else DigitsValue(ds[..|ds| - 1], radix) * radix + DigitValue(ds[|ds| - 1], radix).GetOr(0)
  }

  /** The global parseInt applied to a string: leading white space is skipped, then an
      optional sign; without an explicit radix a `0x`/`0X` prefix selects base 16, with
      radix 10 it does not; then the longest run of digits is read. No digit at all
      gives NaN, modelled as None. */
  function ParseIntString(s: string, radix10: bool): (r: Option<int>)
    ensures r.Some? ==> exists k :: 0 <= k < |s| && IsDecimalDigit(s[k])
  {
    var t := TrimStart(s);
    var u := if t != [] && (t[0] == '-' || t[0] == '+') then t[1..] else t;
    UnsignedStartsWithDigit(u, radix10);
    assert u == s[|s| - |u|..];
    assert ParseUnsigned(u, radix10).Some? ==> IsDecimalDigit(s[|s| - |u|]);
    if t != [] && t[0] == '-' then Negate(ParseUnsigned(u, radix10))
    else ToInt(ParseUnsigned(u, radix10))
  }

  /** What the unsigned part reads starts with a decimal digit (a `0x` prefix starts
      with one too). */
  lemma UnsignedStartsWithDigit(u: string, radix10: bool)
    ensures ParseUnsigned(u, radix10).Some? ==> u != [] && IsDecimalDigit(u[0])
  {
    if ParseUnsigned(u, radix10).Some? && !(!radix10 && |u| >= 2 && u[0] == '0' && (u[1] == 'x' || u[1] == 'X')) {
      var ds := DigitPrefix(u, 10);
      assert ds != [] && ds[0] == u[0];
      assert DigitValue(ds[0], 10).Some?;
    }
  }

  /** The unsigned part of parseInt, after white space and sign. */
  function ParseUnsigned(u: string, radix10: bool): Option<nat>
  {
    if !radix10 && |u| >= 2 && u[0] == '0' && (u[1] == 'x' || u[1] == 'X') then ReadDigits(u[2..], 16)
    else ReadDigits(u, 10)
  }

  function ReadDigits(u: string, radix: nat): Option<nat>
  {
    var ds := DigitPrefix(u, radix);
    if ds == [] then None else Some(DigitsValue(ds, radix))
  }

  function DecimalDigit(d: nat): char
    requires d < 10
  {
    ('0' as int + d) as char
  }

  /** The decimal numeral of `n`, as Number.prototype.toString writes it. */
  function NatToString(n: nat): (r: string)
    ensures |r| >= 1
    ensures forall k :: 0 <= k < |r| ==> IsDecimalDigit(r[k])
    ensures r[0] == '0' ==> r == "0"
  {
    if n < 10 then [DecimalDigit(n)] else NatToString(n / 10) + [DecimalDigit(n % 10)]
  }

  function IntToString(n: int): string {
    if n < 0 then "-" + NatToString(-n) else NatToString(n)
  }

  /** parseInt(v) for a value of the body: the value is first converted to a string, so a
      number goes through its numeral and `undefined`, `null` and the booleans read as
      words with no digit. */
  function ParseInt(v: JsValue, radix10: bool): (r: Option<int>)
    ensures v.Num? ==> r == Some(v.n)
    ensures v.Undefined? || v.Null? || v.Bool? ==> r == None
  {
    match v
    case Num(n) => ParseIntOfNumber(n, radix10); ParseIntString(IntToString(n), radix10)
    case Str(s) => ParseIntString(s, radix10)
    case Undefined => ParseIntOfWords(radix10); ParseIntString("undefined", radix10)
    case Null => ParseIntOfWords(radix10); ParseIntString("null", radix10)
    case Bool(b) => ParseIntOfWords(radix10); ParseIntString(if b then "true" else "false", radix10)
  }

  lemma {:induction false} NatToStringValue(n: nat)
    ensures DigitsValue(NatToString(n), 10) == n
  {
    var s := NatToString(n);
    if n >= 10 {
      NatToStringValue(n / 10);
      assert s[..|s| - 1] == NatToString(n / 10);
    }
  }

  lemma {:induction false} DigitPrefixOfDigits(s: string)
    requires forall k :: 0 <= k < |s| ==> IsDecimalDigit(s[k])
    ensures DigitPrefix(s, 10) == s
  {
    if s != [] {
      DigitPrefixOfDigits(s[1..]);
    }
  }

  /** The unsigned part of parseInt reads a numeral as the number it writes. */
  lemma ParseUnsignedOfNumeral(digits: string, radix10: bool)
    requires digits != [] && forall k :: 0 <= k < |digits| ==> IsDecimalDigit(digits[k])
    requires digits[0] == '0' ==> digits == "0"
    ensures ParseUnsigned(digits, radix10) == Some(DigitsValue(digits, 10))
  {
    DigitPrefixOfDigits(digits);
  }

  /** Without white space or a sign in front, parseInt is its unsigned part. */
  lemma ParseIntUnsigned(u: string, radix10: bool)
    requires u != [] && IsDecimalDigit(u[0])
    ensures ParseIntString(u, radix10) == ToInt(ParseUnsigned(u, radix10))
  {
    assert !IsSpace(u[0]);
    assert TrimStart(u) == u;
  }

  /** A leading minus sign negates what parseInt reads after it. */
  lemma ParseIntAfterMinus(u: string, radix10: bool)
    ensures ParseIntString("-" + u, radix10) == Negate(ParseUnsigned(u, radix10))
  {
    var s := "-" + u;
    assert !IsSpace(s[0]);
    assert TrimStart(s) == s;
    assert s[1..] == u;
  }

  /** parseInt gives back every integer from its numeral, whatever the radix mode: this
      is what the server reads from a numeric `stock`. */
  lemma ParseIntOfNumber(n: int, radix10: bool)
    ensures ParseIntString(IntToString(n), radix10) == Some(n)
  {
    var m: nat := if n < 0 then -n else n;
    var digits := NatToString(m);
    NatToStringValue(m);
    ParseUnsignedOfNumeral(digits, radix10);
    if n < 0 {
      ParseIntAfterMinus(digits, radix10);
    } else {
      ParseIntUnsigned(digits, radix10);
    }
  }

  /** A string that starts with something other than white space, a sign or a digit
      does not parse. */
  lemma ParseIntNoDigit(s: string, radix10: bool)
    requires s != [] && !IsSpace(s[0]) && s[0] != '-' && s[0] != '+' && !IsDecimalDigit(s[0])
    ensures ParseIntString(s, radix10) == None
  {
    assert TrimStart(s) == s;
    assert DigitPrefix(s, 10) == [];
  }

  /** `undefined`, `null` and the booleans never parse. */
  lemma ParseIntOfWords(radix10: bool)
    ensures ParseIntString("undefined", radix10) == None && ParseIntString("null", radix10) == None
    ensures ParseIntString("true", radix10) == None && ParseIntString("false", radix10) == None
  {
    ParseIntNoDigit("undefined", radix10);
    ParseIntNoDigit("null", radix10);
    ParseIntNoDigit("true", radix10);
    ParseIntNoDigit("false", radix10);
  }
}

=== FILE: seqs.dfy ===
/** Sequence helpers with the meaning of JavaScript's Array.prototype.filter and map. */
module Seqs {

  /** The elements of `s` that satisfy `f`, in their original order. */
  function Filter<T>(s: seq<T>, f: T -> bool): (r: seq<T>)
    ensures |r| <= |s|
    ensures forall k :: 0 <= k < |r| ==> r[k] in s && f(r[k])
    ensures forall k :: 0 <= k < |s| && f(s[k]) ==> s[k] in r
  {
    if s == [] then [] else (if f(s[0]) then [s[0]] else []) + Filter(s[1..], f)
  }

  /** `f` applied to each element of `s`. */
  function Map<T, U>(s: seq<T>, f: T -> U): (r: seq<U>)
    ensures |r| == |s|
    ensures forall k :: 0 <= k < |s| ==> r[k] == f(s[k])
  {
    seq(|s|, k requires 0 <= k < |s| => f(s[k]))
  }

  /** `r` is obtained from `s` by deleting elements, the survivors keeping their order. */
  predicate IsSubsequence<T(==)>(r: seq<T>, s: seq<T>)
    decreases |s|
  {
    r == [] || (s != [] && if r[0] == s[0] then IsSubsequence(r[1..], s[1..]) else IsSubsequence(r, s[1..]))
  }

  predicate NoDups<T(==)>(s: seq<T>) {
    forall i, j :: 0 <= i < j < |s| ==> s[i] != s[j]
  }

  lemma {:induction false} FilterIsSubsequence<T>(s: seq<T>, f: T -> bool)
    ensures IsSubsequence(Filter(s, f), s)
  {
    if s != [] {
      FilterIsSubsequence(s[1..], f);
      if f(s[0]) {
        assert Filter(s, f) == [s[0]] + Filter(s[1..], f);
        assert Filter(s, f)[1..] == Filter(s[1..], f);
      } else {
        assert Filter(s, f) == Filter(s[1..], f);
      }
    }
  }

  /** A filter that every element passes keeps the sequence as it is. */
  lemma {:induction false} FilterAll<T>(s: seq<T>, f: T -> bool)
    requires forall k :: 0 <= k < |s| ==> f(s[k])
    ensures Filter(s, f) == s
  {
    if s != [] {
      FilterAll(s[1..], f);
    }
  }

  lemma {:induction false} FilterAppend<T>(a: seq<T>, b: seq<T>, f: T -> bool)
    ensures Filter(a + b, f) == Filter(a, f) + Filter(b, f)
  {
    if a == [] {
      assert a + b == b;
    } else {
      assert (a + b)[1..] == a[1..] + b;
      FilterAppend(a[1..], b, f);
    }
  }

  /** No two elements share a key. */
  predicate UniqueKeys<T, K(==)>(s: seq<T>, key: T -> K) {
    forall i, j :: 0 <= i < j < |s| ==> key(s[i]) != key(s[j])
  }

  lemma UniqueKeysTail<T, K>(s: seq<T>, key: T -> K)
    requires s != [] && UniqueKeys(s, key)
    ensures UniqueKeys(s[1..], key)
  {
    forall i, j | 0 <= i < j < |s[1..]| ensures key(s[1..][i]) != key(s[1..][j]) {
      assert s[1..][i] == s[i + 1] && s[1..][j] == s[j + 1];
    }
  }

  /** Every element of a subsequence comes from the sequence. */
  lemma {:induction false} SubsequenceIn<T>(r: seq<T>, s: seq<T>)
    requires IsSubsequence(r, s)
    ensures forall k :: 0 <= k < |r| ==> r[k] in s
    decreases |s|
  {
    if r != [] {
      if r[0] == s[0] {
        SubsequenceIn(r[1..], s[1..]);
        forall k | 0 < k < |r| ensures r[k] in s {
          assert r[k] == r[1..][k - 1];
          assert r[k] in s[1..];
        }
      } else {
        SubsequenceIn(r, s[1..]);
      }
    }
  }

  /** Dropping elements keeps keys unique. */
  lemma {:induction false} SubsequenceKeepsUniqueKeys<T, K>(r: seq<T>, s: seq<T>, key: T -> K)
    requires IsSubsequence(r, s) && UniqueKeys(s, key)
    ensures UniqueKeys(r, key)
    decreases |s|
  {
    if r != [] {
      UniqueKeysTail(s, key);
      if r[0] == s[0] {
        SubsequenceKeepsUniqueKeys(r[1..], s[1..], key);
        SubsequenceIn(r[1..], s[1..]);
        forall j | 0 < j < |r| ensures key(r[0]) != key(r[j]) {
          assert r[j] == r[1..][j - 1];
          var m :| 0 <= m < |s[1..]| && s[1..][m] == r[j];
          assert s[m + 1] == r[j];
        }
      } else {
        SubsequenceKeepsUniqueKeys(r, s[1..], key);
      }
    }
  }

  /** The position of the first occurrence of `x` in `s`. */
  function FirstIndex<T(==)>(s: seq<T>, x: T): (r: nat)
    requires x in s
    ensures r < |s| && s[r] == x && x !in s[..r]
  {
    if s[0] == x then 0
    else
      var i := FirstIndex(s[1..], x);
      assert s[..i + 1] == [s[0]] + s[1..][..i];
      i + 1
  }

  /** A first occurrence inside a prefix is the first occurrence in the whole. */
  lemma FirstIndexPrefix<T>(s: seq<T>, n: nat, x: T)
    requires n <= |s| && x in s[..n]
    ensures FirstIndex(s, x) == FirstIndex(s[..n], x)
  {
    var i := FirstIndex(s[..n], x);
    assert s[..n][..i] == s[..i];
  }

  /** The elements of `s` without repeats, each where it first occurs: the iteration
      order of a JavaScript `Set` built from `s`. */
  function Distinct<T(==)>(s: seq<T>): (r: seq<T>)
    ensures NoDups(r)
    ensures forall k :: 0 <= k < |s| ==> s[k] in r
    ensures forall k :: 0 <= k < |r| ==> r[k] in s
    ensures forall i, j :: 0 <= i < j < |r| ==> FirstIndex(s, r[i]) < FirstIndex(s, r[j])
  {
    if s == [] then []
    else
      var n := |s| - 1;
      var d := Distinct(s[..n]);
      var x := s[n];
      assert s == s[..n] + [x];
      forall k | 0 <= k < |d| ensures FirstIndex(s, d[k]) == FirstIndex(s[..n], d[k]) {
        FirstIndexPrefix(s, n, d[k]);
      }
      if x in d then
        d
      else
        assert FirstIndex(s, x) == n by {
          assert x !in s[..n];
        }
        d + [x]
  }

  /** Filtering keeps the order in which the surviving values first occur. */
  lemma {:induction false} FilterFirstIndex<T>(s: seq<T>, f: T -> bool, x: T, y: T)
    requires x in Filter(s, f) && y in Filter(s, f)
    requires FirstIndex(Filter(s, f), x) < FirstIndex(Filter(s, f), y)
    ensures x in s && y in s
    ensures FirstIndex(s, x) < FirstIndex(s, y)
  {
    var r := Filter(s, f);
    var t := Filter(s[1..], f);
    if f(s[0]) {
      assert r == [s[0]] + t;
      if x != s[0] && y != s[0] {
        assert x in t && y in t;
        assert FirstIndex(r, x) == FirstIndex(t, x) + 1;
        assert FirstIndex(r, y) == FirstIndex(t, y) + 1;
        FilterFirstIndex(s[1..], f, x, y);
      }
    } else {
      assert r == t;
      FilterFirstIndex(s[1..], f, x, y);
    }
  }

  /** The distinct survivors of a filter follow their first occurrences in `s`. */
  lemma DistinctFilterOrder<T>(s: seq<T>, f: T -> bool, i: nat, j: nat)
    requires i < j < |Distinct(Filter(s, f))|
    ensures Distinct(Filter(s, f))[i] in s && Distinct(Filter(s, f))[j] in s
    ensures FirstIndex(s, Distinct(Filter(s, f))[i]) < FirstIndex(s, Distinct(Filter(s, f))[j])
  {
    var r := Filter(s, f);
    var d := Distinct(r);
    assert d[i] in r && d[j] in r;
    FilterFirstIndex(s, f, d[i], d[j]);
  }

  /** A filter that every element fails keeps nothing. */
  lemma {:induction false} FilterNone<T>(s: seq<T>, f: T -> bool)
    requires forall k :: 0 <= k < |s| ==> !f(s[k])
    ensures Filter(s, f) == []
  {
    if s != [] {
      FilterNone(s[1..], f);
    }
  }
}

=== FILE: server.dfy ===
/** The REST backend: an authorization gate in front of an in-memory store of
    administrators, products (`productos`) and orders (`pedidos`). Each route is one
    method of `Store`; the field coercions, the list filter and the statistics are pure
    functions beside it. */
module Server {
  import opened Seqs
  import opened Text
  import opened JsValues
  import opened Catalog

  /** What a route answers: a JSON body with status 200, or an error status and message. */
  datatype Response<T> = Ok(body: T) | Fail(status: nat, error: string)

  const NoAutorizado := "No autorizado"
  const TokenInvalido := "Token inválido"
  const AdminYaExiste := "Admin ya existe"
  const AdminCreado := "Admin creado exitosamente"
  const CredencialesInvalidas := "Credenciales inválidas"
  const ProductoNoEncontrado := "Producto no encontrado"
  const ProductoEliminado := "Producto eliminado"
  /** Stand-ins for the texts of Mongoose's validation and cast errors, answered with 500. */
  const ValidationFailed := "Producto validation failed"
  const CastFailed := "Cast to Number failed"
  /** Stand-in for the text of MongoDB's duplicate key error (code 11000), answered with 500. */
  const DuplicateKey := "E11000 duplicate key error"

  /** The lifetime of a login token, seven days, in seconds. */
  const SevenDays := 7 * 24 * 60 * 60

  // ---------------------------------------------------------------------------------
  // bcrypt and jsonwebtoken

  /** The two libraries, left uninterpreted: the model only passes values through them. */
  datatype Crypto = Crypto(
    hash: string -> string,              // bcrypt.hash(password, 10)
    compare: (string, string) -> bool,   // bcrypt.compare(password, hash)
    sign: (Id, Time) -> string,          // jwt.sign({ id }, secret) expiring at the given instant
    verify: (string, Time) -> Option<Id>) // jwt.verify(token, secret) at the given instant

  /** What bcrypt promises: a password matches its own hash. */
  ghost predicate BcryptSound(c: Crypto) {
    forall p :: c.compare(p, c.hash(p))
  }

  /** What jsonwebtoken promises: a signed token verifies to its id strictly before its
      expiry and not after, and is a non-empty string without spaces. */
  ghost predicate JwtSound(c: Crypto) {
    && (forall id: Id, exp: Time, now: Time :: c.verify(c.sign(id, exp), now) == (if now < exp then Some(id) else None))
    && (forall id: Id, exp: Time :: c.sign(id, exp) != "" && ' ' !in c.sign(id, exp))
  }

  // ---------------------------------------------------------------------------------
  // The authorization gate (authMiddleware)

  /** The token of the Authorization header: its second piece when split at single
      spaces, provided there is one and it is not empty. The scheme word is not checked. */
  function BearerToken(header: Option<string>): (r: Option<string>)
    ensures r.Some? ==> r.value != "" && ' ' !in r.value
  {
    match header
    case None => None
    case Some(h) =>
      var parts := Split(h, ' ');
      if |parts| >= 2 && parts[1] != "" then Some(parts[1]) else None
  }

  /** The administrator a request acts for, or the 401 that answers it instead of the
      protected handler. */
  function Authorize(c: Crypto, header: Option<string>, now: Time): (r: Response<Id>)
    ensures r.Fail? ==> r.status == 401
    ensures r == Fail(401, NoAutorizado) <==> BearerToken(header).None?
    ensures r == Fail(401, TokenInvalido) <==>
              BearerToken(header).Some? && c.verify(BearerToken(header).value, now).None?
    ensures r.Ok? ==> BearerToken(header).Some? && c.verify(BearerToken(header).value, now) == Some(r.body)
  {
    match BearerToken(header)
    case None => Fail(401, NoAutorizado)
    case Some(token) =>
      match c.verify(token, now)
      case None => Fail(401, TokenInvalido)
      case Some(id) => Ok(id)
  }

  /** The gate's refusal, as the answer of a protected route. */
  function Deny<T>(gate: Response<Id>): Response<T>
    requires gate.Fail?
  {
    Fail(gate.status, gate.error)
  }

  /** A token issued at login, sent as `Bearer <token>`, admits its administrator until
      seven days have passed and is refused as invalid from then on. */
  lemma LoginTokenAuthorizes(c: Crypto, id: Id, issued: Time, now: Time)
    requires JwtSound(c)
    ensures var header := Some("Bearer " + c.sign(id, issued + SevenDays));
            Authorize(c, header, now) == if now < issued + SevenDays then Ok(id) else Fail(401, TokenInvalido)
  {
    var token := c.sign(id, issued + SevenDays);
    var parts := ["Bearer", token];
    assert Join(parts, " ") == "Bearer " + token;
    SplitJoin(parts, ' ');
    assert BearerToken(Some("Bearer " + token)) == Some(token);
  }

  /** A header whose second piece is missing or empty, as with `Bearer` alone or two
      spaces before the token, never reaches token verification. */
  lemma MissingTokenIsUnauthorized(c: Crypto, token: string, now: Time)
    requires ' ' !in token
    ensures Authorize(c, Some("Bearer"), now) == Fail(401, NoAutorizado)
    ensures Authorize(c, Some("Bearer  " + token), now) == Fail(401, NoAutorizado)
  {
    SplitNoSeparator("Bearer", ' ');
    var parts := ["Bearer", "", token];
    assert Join(parts[2..], " ") == token;
    assert Join(parts[1..], " ") == " " + token;
    assert Join(parts, " ") == "Bearer  " + token;
    SplitJoin(parts, ' ');
  }

  // ---------------------------------------------------------------------------------
  // Collections keyed by id

  function ProductoId(p: Producto): Id { p.id }
  function PedidoId(p: Pedido): Id { p.id }

  /** Every key is below `bound`, so `bound` is free for the next document. */
  predicate KeysBelow<T>(s: seq<T>, key: T -> Id, bound: nat) {
    forall k :: 0 <= k < |s| ==> key(s[k]) < bound
  }

  /** findById: the first element with key `id`. */
  function FindById<T>(s: seq<T>, key: T -> Id, id: Id): (r: Option<T>)
    ensures r.Some? ==> r.value in s && key(r.value) == id
    ensures r.None? <==> forall k :: 0 <= k < |s| ==> key(s[k]) != id
  {
    if s == [] then None else if key(s[0]) == id then Some(s[0]) else FindById(s[1..], key, id)
  }

  /** With unique keys, the element found is the one holding the key. */
  lemma {:induction false} FindByIdUnique<T>(s: seq<T>, key: T -> Id, k: nat)
    requires UniqueKeys(s, key) && k < |s|
    ensures FindById(s, key, key(s[k])) == Some(s[k])
  {
    if k > 0 {
      assert key(s[0]) != key(s[k]);
      UniqueKeysTail(s, key);
      FindByIdUnique(s[1..], key, k - 1);
    }
  }

  /** findByIdAndUpdate: every element with key `id` becomes `x`. */
  function ReplaceById<T>(s: seq<T>, key: T -> Id, id: Id, x: T): (r: seq<T>)
    ensures |r| == |s|
    ensures forall k :: 0 <= k < |s| ==> r[k] == if key(s[k]) == id then x else s[k]
  {
    Map(s, (y: T) => if key(y) == id then x else y)
  }

  /** findByIdAndDelete: the elements whose key is not `id`, in their order. */
  function RemoveById<T>(s: seq<T>, key: T -> Id, id: Id): (r: seq<T>)
    ensures forall k :: 0 <= k < |r| ==> key(r[k]) != id
  {
    Filter(s, (y: T) => key(y) != id)
  }

  /** Deleting an id removes at most one document, namely the one with that id, keeps
      every other document in order, and changes nothing when the id is absent. */
  lemma {:induction false} RemoveByIdAtMostOne<T>(s: seq<T>, key: T -> Id, id: Id)
    requires UniqueKeys(s, key)
    ensures FindById(s, key, id).None? ==> RemoveById(s, key, id) == s
    ensures FindById(s, key, id).Some? ==> |RemoveById(s, key, id)| == |s| - 1
    ensures IsSubsequence(RemoveById(s, key, id), s)
  {
    FilterIsSubsequence(s, (y: T) => key(y) != id);
    if s != [] {
      UniqueKeysTail(s, key);
      RemoveByIdAtMostOne(s[1..], key, id);
      if key(s[0]) == id {
        assert forall k :: 0 <= k < |s[1..]| ==> key(s[1..][k]) != id by {
          forall k | 0 <= k < |s[1..]| ensures key(s[1..][k]) != id {
            assert s[1..][k] == s[k + 1];
          }
        }
        FilterAll(s[1..], (y: T) => key(y) != id);
      }
    }
  }

  // ---------------------------------------------------------------------------------
  // Listing order: newest `createdAt` first

  predicate NewestFirst<T>(s: seq<T>, date: T -> Time) {
    forall i, j :: 0 <= i < j < |s| ==> date(s[i]) >= date(s[j])
  }

  function InsertByDate<T(==)>(x: T, s: seq<T>, date: T -> Time): (r: seq<T>)
    requires NewestFirst(s, date)
    ensures multiset(r) == multiset(s) + multiset{x}
    ensures |r| == |s| + 1
    ensures forall k :: 0 <= k < |r| ==> r[k] == x || r[k] in s
    ensures NewestFirst(r, date)
  {
    if s == [] || date(x) >= date(s[0]) then
      PrependNewest(x, s, date);
      [x] + s
    else
      var rest := InsertByDate(x, s[1..], date);
      assert s == [s[0]] + s[1..];
      HeadIsNewest(s, date);
      PrependNewest(s[0], rest, date);
      [s[0]] + rest
  }

  /** The head of a newest-first list is at least as recent as anything after it. */
  lemma HeadIsNewest<T>(s: seq<T>, date: T -> Time)
    requires NewestFirst(s, date) && s != []
    ensures forall y :: y in s[1..] ==> date(s[0]) >= date(y)
  {
    forall y | y in s[1..] ensures date(s[0]) >= date(y) {
      var m :| 0 <= m < |s[1..]| && s[1..][m] == y;
      assert s[m + 1] == y;
    }
  }

  /** Putting an element no older than any other in front keeps a list newest-first. */
  lemma PrependNewest<T>(y: T, s: seq<T>, date: T -> Time)
    requires NewestFirst(s, date)
    requires forall z :: z in s ==> date(y) >= date(z)
    ensures NewestFirst([y] + s, date)
  {
    var r := [y] + s;
    forall i, j | 0 <= i < j < |r| ensures date(r[i]) >= date(r[j]) {
      if i == 0 {
        assert r[j] == s[j - 1];
      } else {
        assert r[i] == s[i - 1] && r[j] == s[j - 1];
      }
    }
  }

  /** The documents of `s`, newest first (ties keep no particular order in MongoDB; the
      model breaks them one fixed way). */
  function SortNewestFirst<T(==)>(s: seq<T>, date: T -> Time): (r: seq<T>)
    ensures multiset(r) == multiset(s)
    ensures NewestFirst(r, date)
  {
    if s == [] then []
    else
      assert s == [s[0]] + s[1..];
      InsertByDate(s[0], SortNewestFirst(s[1..], date), date)
  }

  function ProductoDate(p: Producto): Time { p.createdAt }
  function PedidoDate(p: Pedido): Time { p.createdAt }

  // ---------------------------------------------------------------------------------
  // Public product listing

  /** The query string of GET /api/productos. */
  datatype ListQuery = ListQuery(categoria: Option<string>, destacados: Option<string>)

  /** The filter built at server.js:154-157: always active; the category only when one is
      given and non-empty; featured only for `destacados=true`. */
  predicate Listed(q: ListQuery, p: Producto)
    ensures Listed(q, p) ==> p.activo
    ensures q.categoria.None? && q.destacados.None? ==> (Listed(q, p) <==> p.activo)
  {
    && p.activo
    && (q.categoria.None? || q.categoria.value == "" || p.categoria == q.categoria.value)
    && (q.destacados != Some("true") || p.destacado)
  }

  // ---------------------------------------------------------------------------------
  // Product create and update

  /** The fields of a product request body. `precio` is what parseFloat read from it, in
      cents (None for NaN); the loosely typed fields keep their JSON type. */
  datatype ProductoBody = ProductoBody(
    nombre: Option<string>,
    descripcion: Option<string>,
    precio: Option<int>,
    categoria: Option<string>,
    colores: Option<seq<string>>,
    stock: JsValue,
    destacado: JsValue,
    activo: JsValue,
    imagenes: Option<seq<string>>,
    videos: Option<seq<string>>)

  /** The stock of a new product: what parseInt reads, except that NaN and 0, both
      falsy, become 1. */
  function StockOnCreate(v: JsValue): (r: int)
    ensures r != 0
  {
    match ParseInt(v, false)
    case Some(n) => if n == 0 then 1 else n
    case None => 1
  }

  /** A numeric stock is kept unless it is 0; a missing, null or boolean one becomes 1. */
  lemma StockOnCreateCases(v: JsValue)
    ensures v.Num? ==> StockOnCreate(v) == if v.n == 0 then 1 else v.n
    ensures v.Undefined? || v.Null? || v.Bool? ==> StockOnCreate(v) == 1
    ensures v.Str? && (forall k :: 0 <= k < |v.s| ==> !IsDecimalDigit(v.s[k])) ==> StockOnCreate(v) == 1
  {
  }

  /** Text stock: a word gives 1, an empty field gives 1, and a decimal is cut at the
      point. */
  lemma StockOnCreateOfText()
    ensures StockOnCreate(Str("muchos")) == 1
    ensures StockOnCreate(Str("")) == 1
    ensures StockOnCreate(Str("3.7")) == 3
  {
    ParseIntNoDigit("muchos", false);
    assert TrimStart("") == "";
    ReadDecimalPoint();
  }

  /** parseInt stops at the decimal point. */
  lemma ReadDecimalPoint()
    ensures ParseIntString("3.7", false) == Some(3)
  {
    var t := "3.7";
    assert !IsSpace(t[0]);
    assert TrimStart(t) == t;
    assert ParseUnsigned(t, false) == ReadDigits(t, 10);
    assert DigitPrefix(t[1..], 10) == [];
    assert DigitPrefix(t, 10) == "3";
    assert "3"[..0] == [];
    assert DigitsValue("3", 10) == 3;
  }

  /** POST /api/productos builds this document; `save` then validates it: a missing or
      empty `nombre` fails `required`, a NaN price fails the cast. */
  function NewProducto(body: ProductoBody, id: Id, now: Time): (r: Response<Producto>)
    ensures r.Ok? <==> body.nombre.Some? && body.nombre.value != "" && body.precio.Some?
    ensures r.Fail? ==> r == Fail(500, ValidationFailed)
    ensures r.Ok? ==> && r.body.id == id && r.body.createdAt == now
                      && r.body.nombre == body.nombre.value && r.body.precio == body.precio.value
                      && r.body.descripcion == body.descripcion.GetOr("")
                      && r.body.categoria == body.categoria.GetOr("")
                      && r.body.stock == StockOnCreate(body.stock) && r.body.stock != 0
                      && r.body.videos == [] && r.body.activo
                      && (r.body.destacado <==> body.destacado == Str("true"))
                      && r.body.imagenes == body.imagenes.GetOr([])
                      && r.body.colores == body.colores.GetOr([])
  {
    if body.nombre.None? || body.nombre.value == "" || body.precio.None? then
      Fail(500, ValidationFailed)
    else
      Ok(Producto(
        id := id,
        nombre := body.nombre.value,
        descripcion := body.descripcion.GetOr(""),
        precio := body.precio.value,
        imagenes := body.imagenes.GetOr([]),
        videos := [],
        categoria := body.categoria.GetOr(""),
        colores := body.colores.GetOr([]),
        stock := StockOnCreate(body.stock),
        destacado := IsTrueString(body.destacado),
        activo := true,
        createdAt := now))
  }

  /** A created product is active, so the public list shows it when no category is
      asked for, and among the featured ones exactly when `destacado` was the string
      'true'. */
  lemma NewProductoListed(body: ProductoBody, id: Id, now: Time)
    requires NewProducto(body, id, now).Ok?
    ensures Listed(ListQuery(None, None), NewProducto(body, id, now).body)
    ensures Listed(ListQuery(None, Some("true")), NewProducto(body, id, now).body) <==> body.destacado == Str("true")
  {
  }

  /** The update document casts: a NaN price or stock makes findByIdAndUpdate fail. */
  predicate UpdateCasts(body: ProductoBody)
    ensures body.precio.Some? && body.stock.Num? ==> UpdateCasts(body)
    ensures body.precio.None? || body.stock.Undefined? || body.stock.Null? || body.stock.Bool? ==> !UpdateCasts(body)
  {
    body.precio.Some? && ParseInt(body.stock, false).Some?
  }

  /** The product after findByIdAndUpdate: the arrays and flags are always replaced
      (absent ones by [] and false), the strings only when the body carries them, and
      `id` and `createdAt` never. */
  function UpdatedProducto(p: Producto, body: ProductoBody): (r: Producto)
    requires UpdateCasts(body)
    ensures r.id == p.id && r.createdAt == p.createdAt
    ensures r.activo <==> body.activo == Str("true")
    ensures r.destacado <==> body.destacado == Str("true")
    ensures r.precio == body.precio.value
    ensures Some(r.stock) == ParseInt(body.stock, false)
    ensures body.stock.Num? ==> r.stock == body.stock.n
    ensures r.nombre == body.nombre.GetOr(p.nombre)
    ensures r.descripcion == body.descripcion.GetOr(p.descripcion)
    ensures r.categoria == body.categoria.GetOr(p.categoria)
    ensures r.imagenes == body.imagenes.GetOr([]) && r.videos == body.videos.GetOr([])
    ensures r.colores == body.colores.GetOr([])
  {
    p.(
      nombre := body.nombre.GetOr(p.nombre),
      descripcion := body.descripcion.GetOr(p.descripcion),
      precio := body.precio.value,
      imagenes := body.imagenes.GetOr([]),
      videos := body.videos.GetOr([]),
      categoria := body.categoria.GetOr(p.categoria),
      colores := body.colores.GetOr([]),
      stock := ParseInt(body.stock, false).value,
      destacado := IsTrueString(body.destacado),
      activo := IsTrueString(body.activo))
  }

  // ---------------------------------------------------------------------------------
  // Orders and statistics

  /** The body of POST /api/pedidos. The whole body goes to the model, so `estado`,
      `notas`, and even `_id` (here `id`) and `createdAt` are honoured when present. */
  datatype PedidoBody = PedidoBody(
    cliente: Cliente,
    productos: seq<Linea>,
    total: Option<int>,
    estado: Option<string>,
    notas: Option<string>,
    id: Option<Id>,
    createdAt: Option<Time>)

  /** The stored order: the body as sent, `estado` defaulting to 'pendiente', `_id` to a
      fresh id and `createdAt` to the current time. */
  function NewPedido(body: PedidoBody, newId: Id, now: Time): (r: Pedido)
    ensures r.total == body.total && r.productos == body.productos && r.cliente == body.cliente
    ensures r.notas == body.notas
    ensures body.estado.None? ==> r.estado == Pendiente
    ensures body.estado.Some? ==> r.estado == body.estado.value
    ensures body.id.None? ==> r.id == newId
    ensures body.id.Some? ==> r.id == body.id.value
    ensures body.createdAt.None? ==> r.createdAt == now
    ensures body.createdAt.Some? ==> r.createdAt == body.createdAt.value
  {
    Pedido(body.id.GetOr(newId), body.cliente, body.productos, body.total, body.estado.GetOr(Pendiente),
           body.notas, body.createdAt.GetOr(now))
  }

  /** An order update: any status replaces any status; a field
      the body leaves out is not touched. */
  function UpdatedPedido(p: Pedido, estado: Option<string>, notas: Option<string>): (r: Pedido)
    ensures r.id == p.id && r.cliente == p.cliente && r.productos == p.productos
    ensures r.total == p.total && r.createdAt == p.createdAt
    ensures estado.Some? ==> r.estado == estado.value
    ensures estado.None? ==> r.estado == p.estado
    ensures notas.Some? ==> r.notas == notas
    ensures notas.None? ==> r.notas == p.notas
  {
    p.(estado := estado.GetOr(p.estado), notas := if notas.Some? then notas else p.notas)
  }

  datatype Stats = Stats(totalProductos: nat, totalPedidos: nat, pedidosPendientes: nat, ventasTotal: int)

  /** The `$sum` of `total` over the orders; an order without a total adds nothing. */
  function Ventas(os: seq<Pedido>): int
  {
    if os == [] then 0 else Ventas(os[..|os| - 1]) + os[|os| - 1].total.GetOr(0)
  }

  /** Revenue is never negative when no total is, and it is zero when no order has a
      total. */
  lemma {:induction false} VentasBounds(os: seq<Pedido>)
    ensures (forall k :: 0 <= k < |os| ==> os[k].total.GetOr(0) >= 0) ==> Ventas(os) >= 0
    ensures (forall k :: 0 <= k < |os| ==> os[k].total.None?) ==> Ventas(os) == 0
  {
    if os != [] {
      var init := os[..|os| - 1];
      VentasBounds(init);
      assert forall k :: 0 <= k < |init| ==> init[k] == os[k];
    }
  }

  function IsActivo(p: Producto): bool { p.activo }
  function IsPendiente(o: Pedido): bool { o.estado == Pendiente }

  /** The four counts of GET /api/estadisticas. */
  function StatsOf(ps: seq<Producto>, os: seq<Pedido>): (r: Stats)
    ensures r.totalPedidos == |os| && r.pedidosPendientes <= r.totalPedidos
    ensures r.totalProductos <= |ps|
    ensures os == [] ==> r.ventasTotal == 0
  {
    Stats(|Filter(ps, IsActivo)|, |os|, |Filter(os, IsPendiente)|, Ventas(os))
  }

  /** Storing one more order adds one to the order count, one to the pending count when
      it is pending, and its total (whatever it is) to the revenue. */
  lemma StatsAfterOrder(ps: seq<Producto>, os: seq<Pedido>, o: Pedido)
    ensures StatsOf(ps, os + [o]).totalProductos == StatsOf(ps, os).totalProductos
    ensures StatsOf(ps, os + [o]).totalPedidos == StatsOf(ps, os).totalPedidos + 1
    ensures StatsOf(ps, os + [o]).pedidosPendientes ==
              StatsOf(ps, os).pedidosPendientes + (if o.estado == Pendiente then 1 else 0)
    ensures StatsOf(ps, os + [o]).ventasTotal == StatsOf(ps, os).ventasTotal + o.total.GetOr(0)
  {
    FilterAppend(os, [o], IsPendiente);
    assert (os + [o])[..|os + [o]| - 1] == os;
  }

  /** Revenue counts every order, whatever its status: it is the sum over the orders. */
  lemma {:induction false} VentasSplit(os: seq<Pedido>, k: nat)
    requires k <= |os|
    ensures Ventas(os) == Ventas(os[..k]) + Ventas(os[k..])
    decreases |os| - k
  {
    if k == |os| {
      assert os[..k] == os;
      assert os[k..] == [];
    } else {
      var n := |os|;
      var init := os[..n - 1];
      VentasSplit(init, k);
      assert init[..k] == os[..k];
      assert init[k..] == os[k..][..|os[k..]| - 1];
      assert os[k..][|os[k..]| - 1] == os[n - 1];
      assert Ventas(os[k..]) == Ventas(init[k..]) + os[n - 1].total.GetOr(0);
      assert Ventas(os) == Ventas(init) + os[n - 1].total.GetOr(0);
    }
  }

  // ---------------------------------------------------------------------------------
  // Login

  datatype AdminView = AdminView(id: Id, email: string, nombre: string)
  datatype LoginOk = LoginOk(token: string, admin: AdminView)

  /** The in-memory store behind the routes. */
  class Store {
    const crypto: Crypto
    var admins: seq<Admin>
    var productos: seq<Producto>
    var pedidos: seq<Pedido>
    /** The next free document id. */
    var nextId: nat

    /** Admin emails are unique (register checks them; the schema index demands it);
        product and order ids are unique and below `nextId`. */
    ghost predicate Valid()
      reads this
    {
      && (forall i, j :: 0 <= i < j < |admins| ==> admins[i].email != admins[j].email)
      && (forall k :: 0 <= k < |admins| ==> admins[k].id < nextId)
      && UniqueKeys(productos, ProductoId) && KeysBelow(productos, ProductoId, nextId)
      && UniqueKeys(pedidos, PedidoId) && KeysBelow(pedidos, PedidoId, nextId)
    }

    constructor (crypto: Crypto)
      ensures Valid()
      ensures this.crypto == crypto
      ensures admins == [] && productos == [] && pedidos == []
    {
      this.crypto := crypto;
      admins, productos, pedidos := [], [], [];
      nextId := 0;
    }

    /** POST /api/auth/register: refuses a known email with 400 and changes nothing;
        otherwise stores exactly one administrator holding the hash of the password. */
    method Register(email: string, password: string, nombre: string) returns (r: Response<string>)
      requires Valid()
      modifies this`admins, this`nextId
      ensures Valid()
      ensures (exists k :: 0 <= k < |old(admins)| && old(admins)[k].email == email) ==>
                r == Fail(400, AdminYaExiste) && admins == old(admins) && nextId == old(nextId)
      ensures (forall k :: 0 <= k < |old(admins)| ==> old(admins)[k].email != email) ==>
                && r == Ok(AdminCreado)
                && admins == old(admins) + [Admin(old(nextId), email, crypto.hash(password), nombre)]
    {
      var i := 0;
      while i < |admins|
        invariant 0 <= i <= |admins|
        invariant forall k :: 0 <= k < i ==> admins[k].email != email
      {
        if admins[i].email == email {
          return Fail(400, AdminYaExiste);
        }
        i := i + 1;
      }
      admins := admins + [Admin(nextId, email, crypto.hash(password), nombre)];
      nextId := nextId + 1;
      r := Ok(AdminCreado);
    }

    /** POST /api/auth/login: the same 400 for an unknown email and for a wrong password;
        otherwise a token for the administrator's id expiring in seven days. */
    method Login(email: string, password: string, now: Time) returns (r: Response<LoginOk>)
      requires Valid()
      ensures (forall k :: 0 <= k < |admins| ==> admins[k].email != email) ==>
                r == Fail(400, CredencialesInvalidas)
      ensures forall k :: 0 <= k < |admins| && admins[k].email == email ==>
                var a := admins[k];
                r == if crypto.compare(password, a.password)
                     then Ok(LoginOk(crypto.sign(a.id, now + SevenDays), AdminView(a.id, a.email, a.nombre)))
                     else Fail(400, CredencialesInvalidas)
    {
      var i := 0;
      while i < |admins|
        invariant 0 <= i <= |admins|
        invariant forall k :: 0 <= k < i ==> admins[k].email != email
      {
        if admins[i].email == email {
          var a := admins[i];
          if !crypto.compare(password, a.password) {
            return Fail(400, CredencialesInvalidas);
          }
          return Ok(LoginOk(crypto.sign(a.id, now + SevenDays), AdminView(a.id, a.email, a.nombre)));
        }
        i := i + 1;
      }
      r := Fail(400, CredencialesInvalidas);
    }

    /** POST /api/auth/register followed by POST /api/auth/login with the same email and
        password: the login succeeds for the new administrator, and its token admits
        that administrator until seven days after `now` and not after. */
    method RegisterThenLogin(email: string, password: string, nombre: string, now: Time)
      returns (registered: Response<string>, login: Response<LoginOk>)
      requires Valid() && BcryptSound(crypto) && JwtSound(crypto)
      requires forall k :: 0 <= k < |admins| ==> admins[k].email != email
      modifies this`admins, this`nextId
      ensures Valid()
      ensures registered == Ok(AdminCreado)
      ensures login.Ok? && login.body.admin == AdminView(old(nextId), email, nombre)
      ensures Authorize(crypto, Some("Bearer " + login.body.token), now) == Ok(old(nextId))
      ensures Authorize(crypto, Some("Bearer " + login.body.token), now + SevenDays) == Fail(401, TokenInvalido)
    {
      var id := nextId;
      registered := Register(email, password, nombre);
      var k := |admins| - 1;
      assert admins[k] == Admin(id, email, crypto.hash(password), nombre);
      assert crypto.compare(password, admins[k].password);
      login := Login(email, password, now);
      LoginTokenAuthorizes(crypto, id, now, now);
      LoginTokenAuthorizes(crypto, id, now, now + SevenDays);
    }

    /** GET /api/productos: exactly the listed products, newest first. */
    method ListProductos(q: ListQuery) returns (r: seq<Producto>)
      ensures forall p :: p in r <==> p in productos && Listed(q, p)
      ensures multiset(r) == multiset(Filter(productos, (p: Producto) => Listed(q, p)))
      ensures NewestFirst(r, ProductoDate)
    {
      var listed := Filter(productos, (p: Producto) => Listed(q, p));
      r := SortNewestFirst(listed, ProductoDate);
      forall p ensures p in r <==> p in listed {
        assert p in r <==> p in multiset(r);
      }
    }

    /** GET /api/productos/:id: the product with that id, active or not; 404 only when
        no product has it. */
    method GetProducto(id: Id) returns (r: Response<Producto>)
      requires Valid()
      ensures r.Fail? <==> forall k :: 0 <= k < |productos| ==> productos[k].id != id
      ensures r.Fail? ==> r == Fail(404, ProductoNoEncontrado)
      ensures forall k :: 0 <= k < |productos| && productos[k].id == id ==> r == Ok(productos[k])
    {
      match FindById(productos, ProductoId, id)
      case None =>
        r := Fail(404, ProductoNoEncontrado);
      case Some(p) =>
        r := Ok(p);
        forall k | 0 <= k < |productos| && productos[k].id == id ensures r == Ok(productos[k]) {
          FindByIdUnique(productos, ProductoId, k);
        }
    }

    /** POST /api/productos (protected): stores the coerced product under a fresh id. */
    method CreateProducto(header: Option<string>, now: Time, body: ProductoBody) returns (r: Response<Producto>)
      requires Valid()
      modifies this`productos, this`nextId
      ensures Valid()
      ensures var gate := Authorize(crypto, header, now);
              gate.Fail? ==> r == Deny(gate) && productos == old(productos) && nextId == old(nextId)
      ensures Authorize(crypto, header, now).Ok? ==>
                && r == NewProducto(body, old(nextId), now)
                && productos == old(productos) + (if r.Ok? then [r.body] else [])
    {
      var gate := Authorize(crypto, header, now);
      if gate.Fail? {
        return Deny(gate);
      }
      r := NewProducto(body, nextId, now);
      if r.Ok? {
        productos := productos + [r.body];
        nextId := nextId + 1;
      }
    }

    /** PUT /api/productos/:id (protected): replaces the product with that id; an
        unknown id answers null and changes nothing. */
    method UpdateProducto(header: Option<string>, now: Time, id: Id, body: ProductoBody)
      returns (r: Response<Option<Producto>>)
      requires Valid()
      modifies this`productos
      ensures Valid()
      ensures var gate := Authorize(crypto, header, now);
              gate.Fail? ==> r == Deny(gate) && productos == old(productos)
      ensures Authorize(crypto, header, now).Ok? && !UpdateCasts(body) ==>
                r == Fail(500, CastFailed) && productos == old(productos)
      ensures Authorize(crypto, header, now).Ok? && UpdateCasts(body) ==>
                match FindById(old(productos), ProductoId, id)
                case None => r == Ok(None) && productos == old(productos)
                case Some(p) =>
                  && r == Ok(Some(UpdatedProducto(p, body)))
                  && productos == ReplaceById(old(productos), ProductoId, id, UpdatedProducto(p, body))
    {
      var gate := Authorize(crypto, header, now);
      if gate.Fail? {
        return Deny(gate);
      }
      if !UpdateCasts(body) {
        return Fail(500, CastFailed);
      }
      match FindById(productos, ProductoId, id)
      case None =>
        r := Ok(None);
      case Some(p) =>
        var q := UpdatedProducto(p, body);
        productos := ReplaceById(productos, ProductoId, id, q);
        r := Ok(Some(q));
    }

    /** DELETE /api/productos/:id (protected): the same message whether or not the id
        existed; at most that one product goes. */
    method DeleteProducto(header: Option<string>, now: Time, id: Id) returns (r: Response<string>)
      requires Valid()
      modifies this`productos
      ensures Valid()
      ensures var gate := Authorize(crypto, header, now);
              gate.Fail? ==> r == Deny(gate) && productos == old(productos)
      ensures Authorize(crypto, header, now).Ok? ==>
                r == Ok(ProductoEliminado) && productos == RemoveById(old(productos), ProductoId, id)
    {
      var gate := Authorize(crypto, header, now);
      if gate.Fail? {
        return Deny(gate);
      }
      RemoveByIdAtMostOne(productos, ProductoId, id);
      productos := RemoveById(productos, ProductoId, id);
      r := Ok(ProductoEliminado);
      assert UniqueKeys(productos, ProductoId) by {
        SubsequenceKeepsUniqueKeys(productos, old(productos), ProductoId);
      }
    }

    /** POST /api/pedidos (public): stores the order as sent. A body `_id` that an
        order already has fails the insert with 500 and stores nothing; otherwise the
        order is appended, under a fresh id when the body brings none. */
    method CreatePedido(now: Time, body: PedidoBody) returns (r: Response<Pedido>)
      requires Valid()
      modifies this`pedidos, this`nextId
      ensures Valid()
      ensures body.id.Some? && FindById(old(pedidos), PedidoId, body.id.value).Some? ==>
                r == Fail(500, DuplicateKey) && pedidos == old(pedidos)
      ensures body.id.None? || FindById(old(pedidos), PedidoId, body.id.value).None? ==>
                && r == Ok(NewPedido(body, old(nextId), now))
                && pedidos == old(pedidos) + [r.body]
    {
      if body.id.Some? && FindById(pedidos, PedidoId, body.id.value).Some? {
        return Fail(500, DuplicateKey);
      }
      var o := NewPedido(body, nextId, now);
      pedidos := pedidos + [o];
      nextId := if o.id < nextId then nextId else o.id + 1;
      r := Ok(o);
      assert UniqueKeys(pedidos, PedidoId) by {
        forall i, j | 0 <= i < j < |pedidos| ensures pedidos[i].id != pedidos[j].id {
          if j == |pedidos| - 1 {
            assert pedidos[i] == old(pedidos)[i];
          }
        }
      }
    }

    /** GET /api/pedidos (protected): every order, newest first. */
    method ListPedidos(header: Option<string>, now: Time) returns (r: Response<seq<Pedido>>)
      ensures var gate := Authorize(crypto, header, now);
              gate.Fail? ==> r == Deny(gate)
      ensures Authorize(crypto, header, now).Ok? ==>
                r.Ok? && multiset(r.body) == multiset(pedidos) && NewestFirst(r.body, PedidoDate)
    {
      var gate := Authorize(crypto, header, now);
      if gate.Fail? {
        return Deny(gate);
      }
      r := Ok(SortNewestFirst(pedidos, PedidoDate));
    }

    /** PUT /api/pedidos/:id (protected): sets the given status and notes with no
        transition guard; an unknown id answers null. */
    method UpdatePedido(header: Option<string>, now: Time, id: Id, estado: Option<string>, notas: Option<string>)
      returns (r: Response<Option<Pedido>>)
      requires Valid()
      modifies this`pedidos
      ensures Valid()
      ensures var gate := Authorize(crypto, header, now);
              gate.Fail? ==> r == Deny(gate) && pedidos == old(pedidos)
      ensures Authorize(crypto, header, now).Ok? ==>
                match FindById(old(pedidos), PedidoId, id)
                case None => r == Ok(None) && pedidos == old(pedidos)
                case Some(p) =>
                  && r == Ok(Some(UpdatedPedido(p, estado, notas)))
                  && pedidos == ReplaceById(old(pedidos), PedidoId, id, UpdatedPedido(p, estado, notas))
    {
      var gate := Authorize(crypto, header, now);
      if gate.Fail? {
        return Deny(gate);
      }
      match FindById(pedidos, PedidoId, id)
      case None =>
        r := Ok(None);
      case Some(p) =>
        var q := UpdatedPedido(p, estado, notas);
        pedidos := ReplaceById(pedidos, PedidoId, id, q);
        r := Ok(Some(q));
    }

    /** GET /api/estadisticas (protected). */
    method Estadisticas(header: Option<string>, now: Time) returns (r: Response<Stats>)
      ensures var gate := Authorize(crypto, header, now);
              gate.Fail? ==> r == Deny(gate)
      ensures Authorize(crypto, header, now).Ok? ==>
                && r.Ok?
                && r.body.totalProductos == |Filter(productos, IsActivo)|
                && r.body.totalPedidos == |pedidos|
                && r.body.pedidosPendientes == |Filter(pedidos, IsPendiente)|
                && r.body.ventasTotal == Ventas(pedidos)
    {
      var gate := Authorize(crypto, header, now);
      if gate.Fail? {
        return Deny(gate);
      }
      r := Ok(StatsOf(productos, pedidos));
    }
  }
}

=== FILE: text.dfy ===
/** The string operations of JavaScript that the storefront relies on: split on one
    character, join, trim, ASCII toLowerCase and includes. */
module Text {
  import opened Seqs

  /** White space and line terminators that String.prototype.trim removes
      (ECMAScript WhiteSpace and LineTerminator, including the space separators). */
  predicate IsSpace(c: char) {
    c in {'\t', '\n', '\U{B}', '\U{C}', '\r', ' ', '\U{A0}', '\U{1680}', '\U{2000}', '\U{2001}',
          '\U{2002}', '\U{2003}', '\U{2004}', '\U{2005}', '\U{2006}', '\U{2007}', '\U{2008}',
          '\U{2009}', '\U{200A}', '\U{2028}', '\U{2029}', '\U{202F}', '\U{205F}', '\U{3000}', '\U{FEFF}'}
  }

  /** JavaScript truthiness of a string. */
  predicate NonEmpty(s: string) {
    s != ""
  }

  /** A string with nothing for trim to remove at either end. */
  predicate IsTrimmed(s: string) {
    s == [] || (!IsSpace(s[0]) && !IsSpace(s[|s| - 1]))
  }

  /** String.prototype.trimStart: drops exactly the leading white space. */
  function TrimStart(s: string): (r: string)
    ensures |r| <= |s| && r == s[|s| - |r|..]
    ensures r != [] ==> !IsSpace(r[0])
    ensures forall k :: 0 <= k < |s| - |r| ==> IsSpace(s[k])
  {
    if s != [] && IsSpace(s[0]) then TrimStart(s[1..]) else s
  }

  /** String.prototype.trimEnd: drops exactly the trailing white space. */
  function TrimEnd(s: string): (r: string)
    ensures |r| <= |s| && r == s[..|r|]
    ensures r != [] ==> !IsSpace(r[|r| - 1])
    ensures forall k :: |r| <= k < |s| ==> IsSpace(s[k])
  {
    if s != [] && IsSpace(s[|s| - 1]) then TrimEnd(s[..|s| - 1]) else s
  }

  /** String.prototype.trim: the slice of `s` left after dropping white space at both
      ends, with no white space left at either end. */
  function Trim(s: string): (r: string)
    ensures IsTrimmed(r)
    ensures exists i: nat, j: nat ::
              && i <= j <= |s| && r == s[i..j]
              && (forall k :: 0 <= k < i ==> IsSpace(s[k]))
              && (forall k :: j <= k < |s| ==> IsSpace(s[k]))
  {
    var t := TrimStart(s);
    var r := TrimEnd(t);
    SliceBetweenSpaces(s, t, r);
    r
  }

  /** Cutting white space off the front of `s` and then off the back of what is left
      keeps one slice of `s`, with only white space before and after it. */
  lemma SliceBetweenSpaces(s: string, t: string, r: string)
    requires |t| <= |s| && t == s[|s| - |t|..]
    requires forall k :: 0 <= k < |s| - |t| ==> IsSpace(s[k])
    requires |r| <= |t| && r == t[..|r|]
    requires forall k :: |r| <= k < |t| ==> IsSpace(t[k])
    ensures exists i: nat, j: nat ::
              && i <= j <= |s| && r == s[i..j]
              && (forall k :: 0 <= k < i ==> IsSpace(s[k]))
              && (forall k :: j <= k < |s| ==> IsSpace(s[k]))
  {
    var i := |s| - |t|;
    assert r == s[i..i + |r|];
    forall k | i + |r| <= k < |s|
      ensures IsSpace(s[k])
    {
      assert t[k - i] == s[k];
    }
  }

  /** Joining with separator `sep` (Array.prototype.join). */
  function Join(xs: seq<string>, sep: string): (r: string)
    ensures xs == [] ==> r == ""
  {
    if |xs| == 0 then "" else if |xs| == 1 then xs[0] else xs[0] + sep + Join(xs[1..], sep)
  }

  /** The joined text starts with the first piece and ends with the last. */
  lemma {:induction false} JoinEnds(xs: seq<string>, sep: string)
    requires |xs| >= 1
    ensures xs[0] <= Join(xs, sep)
    ensures var r, last := Join(xs, sep), xs[|xs| - 1];
            |last| <= |r| && r[|r| - |last|..] == last
  {
    if |xs| > 1 {
      JoinEnds(xs[1..], sep);
      var r, rest := Join(xs, sep), Join(xs[1..], sep);
      assert r == xs[0] + sep + rest;
      assert r[|r| - |rest|..] == rest;
    }
  }

  /** String.prototype.split with a one-character separator: the pieces between the
      occurrences of `c`; the empty string splits into one empty piece. */
  function Split(s: string, c: char): (r: seq<string>)
    ensures |r| >= 1
    ensures forall k :: 0 <= k < |r| ==> c !in r[k]
    ensures Join(r, [c]) == s
  {
    if s == [] then [""]
    else
      var rest := Split(s[1..], c);
      if s[0] == c then
        assert [s[0]] + s[1..] == s;
        [""] + rest
      else
        assert |rest| > 1 ==> Join(rest, [c]) == rest[0] + [c] + Join(rest[1..], [c]);
        assert [s[0]] + s[1..] == s;
        [[s[0]] + rest[0]] + rest[1..]
  }

  /** ASCII toLowerCase of one character; every other character is left alone. */
  function LowerChar(c: char): char {
    if 'A' <= c <= 'Z' then (c as int + 32) as char else c
  }

  /** String.prototype.toLowerCase, restricted to ASCII letters. */
  function Lower(s: string): (r: string)
    ensures |r| == |s|
    ensures forall k :: 0 <= k < |s| ==> r[k] == LowerChar(s[k])
  {
    Map(s, LowerChar)
  }

  /** String.prototype.includes: `t` occurs in `s` at some position. */
  predicate Contains(s: string, t: string)
    decreases |s|
  {
    t <= s || (s != [] && Contains(s[1..], t))
  }

  /** Every string includes the empty string. */
  lemma ContainsEmpty(s: string)
    ensures Contains(s, "")
  {
  }

  /** `t` occurs in `s` starting at position `i`. */
  predicate OccursAt(s: string, t: string, i: int) {
    0 <= i <= |s| - |t| && s[i..i + |t|] == t
  }

  /** `t` occurs in `s` one position further on exactly when it occurs in its tail. */
  lemma OccursInTail(s: string, t: string, i: nat)
    requires s != []
    ensures OccursAt(s, t, i + 1) <==> OccursAt(s[1..], t, i)
  {
    if 0 <= i <= |s| - 1 - |t| {
      assert s[1..][i..i + |t|] == s[i + 1..i + 1 + |t|];
    }
  }

  /** `includes` finds `t` exactly when it is a slice of `s`. */
  lemma {:induction false} ContainsIffSlice(s: string, t: string)
    ensures Contains(s, t) <==> exists i :: OccursAt(s, t, i)
  {
    if t <= s {
      assert OccursAt(s, t, 0);
    } else if s == [] {
    } else {
      ContainsIffSlice(s[1..], t);
      assert !OccursAt(s, t, 0);
      if exists i :: OccursAt(s, t, i) {
        var i :| OccursAt(s, t, i);
        OccursInTail(s, t, i - 1);
      }
      if Contains(s[1..], t) {
        var i :| OccursAt(s[1..], t, i);
        OccursInTail(s, t, i);
      }
    }
  }

  /** A string without `c` splits on `c` into itself. */
  lemma {:induction false} SplitNoSeparator(a: string, c: char)
    requires c !in a
    ensures Split(a, c) == [a]
  {
    if a != [] {
      SplitNoSeparator(a[1..], c);
      assert [a[0]] + a[1..] == a;
    }
  }

  /** A separator-free prefix is glued to the first piece of what follows. */
  lemma {:induction false} SplitPrefix(a: string, t: string, c: char)
    requires c !in a
    ensures Split(a + t, c) == [a + Split(t, c)[0]] + Split(t, c)[1..]
  {
    if a == [] {
      assert a + t == t;
      assert a + Split(t, c)[0] == Split(t, c)[0];
      assert Split(t, c) == [Split(t, c)[0]] + Split(t, c)[1..];
    } else {
      assert (a + t)[1..] == a[1..] + t;
      SplitPrefix(a[1..], t, c);
      assert [a[0]] + (a[1..] + Split(t, c)[0]) == a + Split(t, c)[0];
    }
  }

  /** Splitting undoes joining when no piece holds the separator. */
  lemma {:induction false} SplitJoin(xs: seq<string>, c: char)
    requires |xs| >= 1
    requires forall k :: 0 <= k < |xs| ==> c !in xs[k]
    ensures Split(Join(xs, [c]), c) == xs
  {
    if |xs| == 1 {
      SplitNoSeparator(xs[0], c);
    } else {
      SplitJoin(xs[1..], c);
      var rest := Join(xs[1..], [c]);
      assert Join(xs, [c]) == xs[0] + ([c] + rest);
      SplitPrefix(xs[0], [c] + rest, c);
      assert ([c] + rest)[0] == c && ([c] + rest)[1..] == rest;
      assert Split([c] + rest, c) == [""] + Split(rest, c);
      assert xs[0] + "" == xs[0];
      assert xs == [xs[0]] + xs[1..];
    }
  }

  /** trim leaves a trimmed string as it is. */
  lemma TrimOfTrimmed(s: string)
    requires IsTrimmed(s)
    ensures Trim(s) == s
  {
    assert TrimStart(s) == s;
  }

  /** trim removes one leading space in front of a non-empty trimmed string. */
  lemma TrimAfterSpace(s: string)
    requires s != [] && IsTrimmed(s)
    ensures Trim(" " + s) == s
  {
    var t := " " + s;
    assert IsSpace(t[0]) && t[1..] == s;
    assert TrimStart(t) == TrimStart(s);
    assert !IsSpace(s[0]);
    assert TrimStart(s) == s;
    TrimOfTrimmed(s);
  }

  /** trim adds no character. */
  lemma TrimKeepsOut(s: string, c: char)
    requires c !in s
    ensures c !in Trim(s)
  {
    var t := TrimStart(s);
    assert t == s[|s| - |t|..];
    assert TrimEnd(t) == t[..|TrimEnd(t)|];
  }
}

=== FILE: tienda.dfy ===
/** The public storefront: the shopping cart, the order it sends, the category list and
    the product search. The pure transforms come first; `Storefront` holds the component
    state they replace. */
module Tienda {
  import opened Seqs
  import opened Text
  import opened JsValues
  import opened Catalog
  import Server

  /** A cart entry: the product as it was when first added, spread with a quantity. */
  datatype CartItem = CartItem(producto: Producto, cantidad: int)

  function ItemId(item: CartItem): Id { item.producto.id }

  /** The invariant the cart operations keep: one entry per product, each with a
      quantity of at least 1. */
  predicate WellFormed(c: seq<CartItem>) {
    && UniqueKeys(c, ItemId)
    && forall k :: 0 <= k < |c| ==> c[k].cantidad >= 1
  }

  /** The cart entry of a product, looked up by id. */
  function FindItem(c: seq<CartItem>, id: Id): (r: Option<CartItem>)
    ensures r.Some? ==> r.value in c && r.value.producto.id == id
    ensures r.None? <==> forall k :: 0 <= k < |c| ==> c[k].producto.id != id
  {
    Server.FindById(c, ItemId, id)
  }

  function Bump(id: Id, item: CartItem): CartItem {
    if item.producto.id == id then item.(cantidad := item.cantidad + 1) else item
  }

  /** agregarAlCarrito: one more of a product already in the cart, or the product
      appended with quantity 1. */
  function AddToCart(c: seq<CartItem>, p: Producto): (r: seq<CartItem>)
    ensures FindItem(r, p.id).Some?
    ensures FindItem(c, p.id).Some? ==> |r| == |c|
    ensures FindItem(c, p.id).None? ==> |r| == |c| + 1 && r[|c|] == CartItem(p, 1)
    ensures forall k :: 0 <= k < |c| ==> r[k].producto == c[k].producto
  {
    if FindItem(c, p.id).Some? then
      var r := Map(c, (item: CartItem) => Bump(p.id, item));
      assert FindItem(c, p.id).value in c;
      var k :| 0 <= k < |c| && c[k] == FindItem(c, p.id).value;
      assert r[k].producto.id == p.id;
      r
    else
      var r := c + [CartItem(p, 1)];
      assert r[|c|].producto.id == p.id;
      r
  }

  /** Adding increments the quantity of that product only, by exactly one, and keeps
      every entry's product snapshot; it keeps the cart well formed. */
  lemma AddToCartQuantities(c: seq<CartItem>, p: Producto)
    requires WellFormed(c)
    ensures WellFormed(AddToCart(c, p))
    ensures forall k :: 0 <= k < |c| ==>
              AddToCart(c, p)[k].cantidad == c[k].cantidad + (if c[k].producto.id == p.id then 1 else 0)
  {
    var r := AddToCart(c, p);
    if FindItem(c, p.id).None? {
      forall i, j | 0 <= i < j < |r| ensures ItemId(r[i]) != ItemId(r[j]) {
        if j == |c| {
          assert ItemId(c[i]) != p.id;
        } else {
          assert ItemId(c[i]) != ItemId(c[j]);
        }
      }
    }
  }

  /** calcularTotal: the sum of `precio * cantidad` over the cart. */
  function CartTotal(c: seq<CartItem>): int
  {
    if c == [] then 0 else c[0].producto.precio * c[0].cantidad + CartTotal(c[1..])
  }

  /** With no negative price or quantity the total is not negative, and an empty cart
      totals 0. */
  lemma {:induction false} CartTotalNonNegative(c: seq<CartItem>)
    requires forall k :: 0 <= k < |c| ==> c[k].producto.precio >= 0 && c[k].cantidad >= 0
    ensures CartTotal(c) >= 0
    ensures c == [] ==> CartTotal(c) == 0
  {
    if c != [] {
      CartTotalNonNegative(c[1..]);
      assert c[0].producto.precio * c[0].cantidad >= 0;
    }
  }

  lemma {:induction false} CartTotalAppend(a: seq<CartItem>, b: seq<CartItem>)
    ensures CartTotal(a + b) == CartTotal(a) + CartTotal(b)
  {
    if a == [] {
      assert a + b == b;
    } else {
      assert (a + b)[1..] == a[1..] + b;
      CartTotalAppend(a[1..], b);
    }
  }

  /** Bumping an id that no entry carries changes nothing. */
  lemma BumpAbsent(c: seq<CartItem>, id: Id)
    requires forall k :: 0 <= k < |c| ==> c[k].producto.id != id
    ensures Map(c, (item: CartItem) => Bump(id, item)) == c
  {
  }

  /** The total after an add grows by one unit price: that of the entry already in the
      cart (its snapshot, not the product passed in) or of the new product. */
  lemma {:induction false} AddToCartTotal(c: seq<CartItem>, p: Producto)
    requires UniqueKeys(c, ItemId)
    ensures CartTotal(AddToCart(c, p)) == CartTotal(c) + FindItem(c, p.id).GetOr(CartItem(p, 1)).producto.precio
  {
    if FindItem(c, p.id).None? {
      CartTotalAppend(c, [CartItem(p, 1)]);
    } else {
      BumpedTotal(c, p.id);
    }
  }

  lemma {:induction false} BumpedTotal(c: seq<CartItem>, id: Id)
    requires UniqueKeys(c, ItemId) && FindItem(c, id).Some?
    ensures CartTotal(Map(c, (item: CartItem) => Bump(id, item))) == CartTotal(c) + FindItem(c, id).value.producto.precio
  {
    var m := Map(c, (item: CartItem) => Bump(id, item));
    assert m[1..] == Map(c[1..], (item: CartItem) => Bump(id, item));
    UniqueKeysTail(c, ItemId);
    if c[0].producto.id == id {
      assert forall k :: 0 <= k < |c[1..]| ==> c[1..][k].producto.id != id by {
        forall k | 0 <= k < |c[1..]| ensures c[1..][k].producto.id != id {
          assert ItemId(c[0]) != ItemId(c[k + 1]);
        }
      }
      BumpAbsent(c[1..], id);
    } else {
      BumpedTotal(c[1..], id);
    }
  }

  /** The entry for `id` with `delta` added, unless that would leave it at zero or below. */
  function Shift(id: Id, delta: int, item: CartItem): CartItem {
    if item.producto.id == id && item.cantidad + delta > 0 then item.(cantidad := item.cantidad + delta) else item
  }

  /** modificarCantidad: shift the quantity of one entry, then keep the entries whose
      quantity is positive. */
  function ModifyQuantity(c: seq<CartItem>, id: Id, delta: int): (r: seq<CartItem>)
    ensures forall k :: 0 <= k < |r| ==> r[k].cantidad > 0
  {
    Filter(Map(c, (item: CartItem) => Shift(id, delta, item)), (item: CartItem) => item.cantidad > 0)
  }

  /** When every quantity is positive the final filter drops nothing. */
  lemma ModifyQuantityDropsNothing(c: seq<CartItem>, id: Id, delta: int)
    requires forall k :: 0 <= k < |c| ==> c[k].cantidad >= 1
    ensures ModifyQuantity(c, id, delta) == Map(c, (item: CartItem) => Shift(id, delta, item))
  {
    var m := Map(c, (item: CartItem) => Shift(id, delta, item));
    forall k | 0 <= k < |m| ensures m[k].cantidad > 0 {
      assert m[k] == Shift(id, delta, c[k]);
    }
    FilterAll(m, (item: CartItem) => item.cantidad > 0);
  }

  /** On a well-formed cart no entry is ever removed: only the entry with that id changes,
      and only when its quantity stays at least 1. */
  lemma ModifyQuantityKeepsEntries(c: seq<CartItem>, id: Id, delta: int)
    requires WellFormed(c)
    ensures |ModifyQuantity(c, id, delta)| == |c|
    ensures WellFormed(ModifyQuantity(c, id, delta))
    ensures forall k :: 0 <= k < |c| ==>
              && ModifyQuantity(c, id, delta)[k].producto == c[k].producto
              && ModifyQuantity(c, id, delta)[k].cantidad ==
                   if c[k].producto.id == id && c[k].cantidad + delta >= 1 then c[k].cantidad + delta else c[k].cantidad
  {
    ModifyQuantityDropsNothing(c, id, delta);
    var m := ModifyQuantity(c, id, delta);
    forall k | 0 <= k < |c| ensures m[k] == Shift(id, delta, c[k]) {
    }
    forall i, j | 0 <= i < j < |m| ensures ItemId(m[i]) != ItemId(m[j]) {
      assert m[i].producto == c[i].producto && m[j].producto == c[j].producto;
      assert ItemId(c[i]) != ItemId(c[j]);
    }
  }

  /** eliminarDelCarrito. */
  function RemoveFromCart(c: seq<CartItem>, id: Id): (r: seq<CartItem>)
    ensures forall k :: 0 <= k < |r| ==> r[k].producto.id != id
    ensures forall k :: 0 <= k < |c| && c[k].producto.id != id ==> c[k] in r
  {
    Filter(c, (item: CartItem) => item.producto.id != id)
  }

  /** Removing keeps the other entries in their order and the cart well formed. */
  lemma RemoveFromCartKeepsOrder(c: seq<CartItem>, id: Id)
    requires WellFormed(c)
    ensures IsSubsequence(RemoveFromCart(c, id), c)
    ensures WellFormed(RemoveFromCart(c, id))
  {
    FilterIsSubsequence(c, (item: CartItem) => item.producto.id != id);
    SubsequenceKeepsUniqueKeys(RemoveFromCart(c, id), c, ItemId);
  }

  // ---------------------------------------------------------------------------------
  // The order payload of finalizarCompra

  /** The JSON body the storefront posts to the backend. */
  datatype OrderPayload = OrderPayload(cliente: Cliente, productos: seq<Linea>, total: int)

  /** The image of an order line: the product's first image when it has a non-empty
      one, else the empty string. */
  function FirstImage(imagenes: seq<string>): (r: string)
    ensures r == if imagenes == [] then "" else imagenes[0]
  {
    if |imagenes| > 0 && imagenes[0] != "" then imagenes[0] else ""
  }

  /** The order line of a cart entry: a snapshot of the product's id, name and price,
      the quantity, and its first image. */
  function LineOf(item: CartItem): (r: Linea)
    ensures r.productoId == item.producto.id && r.precio == item.producto.precio && r.cantidad == item.cantidad
    ensures r.nombre == item.producto.nombre && r.imagen == FirstImage(item.producto.imagenes)
    ensures r.imagen != "" ==> |item.producto.imagenes| > 0 && r.imagen == item.producto.imagenes[0]
  {
    Linea(item.producto.id, item.producto.nombre, item.producto.precio, item.cantidad, FirstImage(item.producto.imagenes))
  }

  /** The payload, or None when the name or the phone is empty, in which case nothing
      is sent. */
  function BuildOrder(cliente: Cliente, c: seq<CartItem>): (r: Option<OrderPayload>)
    ensures r.Some? <==> cliente.nombre != "" && cliente.telefono != ""
    ensures r.Some? ==> && r.value.cliente == cliente
                        && |r.value.productos| == |c|
                        && r.value.total == CartTotal(c)
                        && forall k :: 0 <= k < |c| ==>
                             var line := r.value.productos[k];
                             && line.productoId == c[k].producto.id && line.nombre == c[k].producto.nombre
                             && line.precio == c[k].producto.precio && line.cantidad == c[k].cantidad
                             && line.imagen == FirstImage(c[k].producto.imagenes)
  {
    if cliente.nombre == "" || cliente.telefono == "" then None
    else Some(OrderPayload(cliente, Map(c, LineOf), CartTotal(c)))
  }

  /** The sum of `precio * cantidad` over the lines of an order. */
  function LinesTotal(ls: seq<Linea>): int
  {
    if ls == [] then 0 else ls[0].precio * ls[0].cantidad + LinesTotal(ls[1..])
  }

  lemma {:induction false} LinesTotalOfCart(c: seq<CartItem>)
    ensures LinesTotal(Map(c, LineOf)) == CartTotal(c)
  {
    if c != [] {
      assert Map(c, LineOf)[1..] == Map(c[1..], LineOf);
      LinesTotalOfCart(c[1..]);
    }
  }

  /** The order the backend stores from a payload: pending, and with a total equal to
      the sum of its own lines. */
  lemma PlacedOrderIsConsistent(cliente: Cliente, c: seq<CartItem>, id: Id, now: Time)
    requires cliente.nombre != "" && cliente.telefono != ""
    ensures var pay := BuildOrder(cliente, c).value;
            var o := Server.NewPedido(Server.PedidoBody(pay.cliente, pay.productos, Some(pay.total), None, None, None, None), id, now);
            && o.estado == Pendiente
            && o.total == Some(LinesTotal(o.productos))
            && |o.productos| == |c|
  {
    LinesTotalOfCart(c);
  }

  // ---------------------------------------------------------------------------------
  // Catalogue views

  function Categoria(p: Producto): string { p.categoria }

  /** The non-empty categories of the catalogue, each once, where it first occurs: the
      set of the category buttons. */
  function DistinctCategories(ps: seq<Producto>): (r: seq<string>)
    ensures "" !in r
  {
    Distinct(Filter(Map(ps, Categoria), NonEmpty))
  }

  /** The category buttons: 'todas', then the distinct categories. */
  function Categorias(ps: seq<Producto>): (r: seq<string>)
    ensures |r| >= 1 && r[0] == "todas" && r[1..] == DistinctCategories(ps)
  {
    ["todas"] + DistinctCategories(ps)
  }

  /** Every non-empty category of a product has exactly one button after 'todas', and
      every such button is a non-empty category of some product. */
  lemma DistinctCategoriesContents(ps: seq<Producto>)
    ensures NoDups(DistinctCategories(ps))
    ensures forall k :: 0 <= k < |ps| && ps[k].categoria != "" ==> ps[k].categoria in DistinctCategories(ps)
    ensures forall k :: 0 <= k < |DistinctCategories(ps)| ==>
              DistinctCategories(ps)[k] != "" && DistinctCategories(ps)[k] in Map(ps, Categoria)
  {
    var all := Map(ps, Categoria);
    var cats := Filter(all, NonEmpty);
    var d := DistinctCategories(ps);
    forall k | 0 <= k < |ps| && ps[k].categoria != "" ensures ps[k].categoria in d {
      assert all[k] == ps[k].categoria;
      assert ps[k].categoria in cats;
    }
    forall k | 0 <= k < |d| ensures d[k] != "" && d[k] in all {
      assert d[k] in cats;
    }
  }

  /** Buttons follow the order in which categories first appear in the catalogue. */
  lemma DistinctCategoriesOrder(ps: seq<Producto>, i: nat, j: nat)
    requires i < j < |DistinctCategories(ps)|
    ensures DistinctCategories(ps)[i] in Map(ps, Categoria) && DistinctCategories(ps)[j] in Map(ps, Categoria)
    ensures FirstIndex(Map(ps, Categoria), DistinctCategories(ps)[i]) <
            FirstIndex(Map(ps, Categoria), DistinctCategories(ps)[j])
  {
    DistinctFilterOrder(Map(ps, Categoria), NonEmpty, i, j);
  }

  /** The search and category filter of the storefront. */
  predicate Matches(searchTerm: string, categoriaFiltro: string, p: Producto)
    ensures categoriaFiltro == "todas" ==>
              (Matches(searchTerm, categoriaFiltro, p) <==> Contains(Lower(p.nombre), Lower(searchTerm)))
    ensures searchTerm == "" ==>
              (Matches(searchTerm, categoriaFiltro, p) <==> categoriaFiltro == "todas" || p.categoria == categoriaFiltro)
  {
    ContainsEmpty(Lower(p.nombre));
    && Contains(Lower(p.nombre), Lower(searchTerm))
    && (categoriaFiltro == "todas" || p.categoria == categoriaFiltro)
  }

  /** productosFiltrados: the matching products, in catalogue order. */
  function ProductosFiltrados(ps: seq<Producto>, searchTerm: string, categoriaFiltro: string): (r: seq<Producto>)
    ensures forall p :: p in r <==> p in ps && Matches(searchTerm, categoriaFiltro, p)
  {
    Filter(ps, (p: Producto) => Matches(searchTerm, categoriaFiltro, p))
  }

  /** The filter keeps catalogue order, and an empty search under 'todas' shows every
      product. */
  lemma ProductosFiltradosOrder(ps: seq<Producto>, searchTerm: string, categoriaFiltro: string)
    ensures IsSubsequence(ProductosFiltrados(ps, searchTerm, categoriaFiltro), ps)
    ensures ProductosFiltrados(ps, "", "todas") == ps
  {
    FilterIsSubsequence(ps, (p: Producto) => Matches(searchTerm, categoriaFiltro, p));
    forall k | 0 <= k < |ps| ensures Matches("", "todas", ps[k]) {
      ContainsEmpty(Lower(ps[k].nombre));
    }
    FilterAll(ps, (p: Producto) => Matches("", "todas", p));
  }

  // ---------------------------------------------------------------------------------
  // Component state

  /** The state of the storefront component that the cart handlers replace. */
  class Storefront {
    var carrito: seq<CartItem>
    var mostrarCarrito: bool
    var mostrarCheckout: bool

    ghost predicate Valid()
      reads this
    {
      WellFormed(carrito)
    }

    constructor ()
      ensures Valid()
      ensures carrito == [] && !mostrarCarrito && !mostrarCheckout
    {
      carrito := [];
      mostrarCarrito := false;
      mostrarCheckout := false;
    }

    /** agregarAlCarrito, which also opens the cart. */
    method AgregarAlCarrito(p: Producto)
      requires Valid()
      modifies this`carrito, this`mostrarCarrito
      ensures Valid()
      ensures carrito == AddToCart(old(carrito), p) && mostrarCarrito
    {
      AddToCartQuantities(carrito, p);
      carrito := AddToCart(carrito, p);
      mostrarCarrito := true;
    }

    method ModificarCantidad(id: Id, delta: int)
      requires Valid()
      modifies this`carrito
      ensures Valid()
      ensures carrito == ModifyQuantity(old(carrito), id, delta) && |carrito| == |old(carrito)|
    {
      ModifyQuantityKeepsEntries(carrito, id, delta);
      carrito := ModifyQuantity(carrito, id, delta);
    }

    method EliminarDelCarrito(id: Id)
      requires Valid()
      modifies this`carrito
      ensures Valid()
      ensures carrito == RemoveFromCart(old(carrito), id)
    {
      RemoveFromCartKeepsOrder(carrito, id);
      carrito := RemoveFromCart(carrito, id);
    }

    /** finalizarCompra: the payload it posts, if any; `accepted` is whether the backend
        answered with a success status. Only then are the cart emptied and both panels
        closed; otherwise the state is untouched. */
    method FinalizarCompra(cliente: Cliente, accepted: bool) returns (sent: Option<OrderPayload>)
      requires Valid()
      modifies this`carrito, this`mostrarCarrito, this`mostrarCheckout
      ensures Valid()
      ensures sent == BuildOrder(cliente, old(carrito))
      ensures sent.Some? && accepted ==> carrito == [] && !mostrarCarrito && !mostrarCheckout
      ensures sent.None? || !accepted ==>
                carrito == old(carrito) && mostrarCarrito == old(mostrarCarrito) && mostrarCheckout == old(mostrarCheckout)
    {
      sent := BuildOrder(cliente, carrito);
      if sent.Some? && accepted {
        carrito := [];
        mostrarCheckout := false;
        mostrarCarrito := false;
      }
    }
  }
}
